=== FILE: README.md ===
# s3fs_download: cached read-only handle, modelled in Dafny

`s3fs_download` opens an S3 object as a local, read-only file. `S3Downloader`
holds three settings: a cache directory `dir`, a `lazy` flag and a `use_cache`
flag. Its `open(path)` returns a `DownloadedS3File`. That handle resolves a
backing file in one of two ways. It may reuse an existing `dir/key` file
(only with `use_cache`). Otherwise it downloads the object once into
`dir/key`, or into an anonymous temporary file when `dir` is empty. The
download streams the object's body in `buf_size` chunks. It happens when the
handle is constructed, or on the first read or readline when `lazy` is set.
Reads are then served from the backing file.

This project models that handle as values. A `World` holds the remote store,
the local filesystem and a log of `get_object` calls. A `Handle` holds the
fields `closed`, `_file`, `_tmp` and `_downloaded`. Every operation takes the
world and the handle and returns both, updated, together with its result or
exception:

- `Remote`: the store as a map from (bucket, key) to bytes, and the response body as a stream. `read(amt)` returns the next at most `amt` bytes. A transport cap (`delivery` > 0) lets it return fewer. It returns nothing only at the end or when `amt` is 0.
- `LocalFs`: named files (path to bytes), directories, and open file objects. Each file object has its own contents, cursor and closed flag.
- `Paths`: `os.path.join`, `str.split('/')` / `'/'.join`, and the key's parent directory.
- `Transfer`: the chunk loop of `_download`. It is given both as a recursive function (`Drain`) and as the while loop it is written as (`CopyLoop`), and the two are proved equal.
- `CachedFile`: `_get_tmp`, `_download`, `_get_file`, the constructor, `open`, `read`, `readline`, `write`, `flush` and `close`.
- `HandleProperties` and `Scenarios`: how the operations behave together, including the behaviours the repository's tests check.

The model reproduces these behaviours of the code as written:

- `read` wraps the backing file in `with`, so the file is closed after one read. Any later `read` or `readline` on that handle raises "Cache closed". `readline` leaves the file open.
- The constructor's `buf_size` argument is ignored. Every chunk request asks for `DEFAULT_BUFFER_SIZE` (2^28) bytes.
- An eager handle that reuses the cache file still sets `_downloaded`.
- `read` checks only whether the backing file is closed, never the handle's own `closed` flag. So a lazy handle closed before its first read still downloads when read.
- If the fetch fails after the local file was opened, `_tmp` stays bound to that truncated file. If `_get_tmp` itself raises, `_tmp` is left as it was. `_file` stays unset either way.
- The next read after a failed fetch depends on the cache. Without `use_cache`, or without a cache directory, it tries the download again. With `use_cache` and a cache directory, the failed fetch has left `dir/key` truncated to empty. The next read on that handle, and the read of every later `open` of that key, reuse that empty file: they return no bytes and never ask the store.
- `write` and `flush` raise NameError (see Findings).

## Model

| member | source | states |
|---|---|---|
| Paths.Join | s3fs_download/core.py:120-123 | `os.path.join(a, b)`: an absolute `b` replaces `a`. Otherwise the result is `a`, then `b`, with exactly one '/' between them unless `a` is empty or already ends in '/'; its length is fixed accordingly, and it is non-empty when `a` is |
| Paths.Split | s3fs_download/core.py:120 | `key.split('/')` yields at least one piece, and no piece contains '/' |
| Paths.JoinParts | s3fs_download/core.py:120 | `'/'.join(parts)` is empty for no pieces, starts with the first piece, and puts a '/' right after it when there are more |
| Paths.JoinSplit | s3fs_download/core.py:120 | joining the '/'-split pieces of a key with '/' gives the key back |
| Paths.ParentCutsAtLastSep | s3fs_download/core.py:120 | the contract of `Paths.Parent`: a key's parent directory is the key cut at its last '/': empty when the key has no '/', otherwise key = parent + '/' + last component, and the last component has no '/' |
| Paths.JoinAppends | s3fs_download/core.py:120-123 | `os.path.join` onto a relative path commutes with appending: joining `b + c` is joining `b`, then appending `c` |
| CachedFile.CacheLayout | s3fs_download/core.py:120-123 | the contract of `CachePath` and `CacheDir`: an absolute key ignores `dir`. For a relative key, the cache file's path is `dir`, then at most one '/', then the key, and the directory's path starts with `dir` and ends with the key's parent |
| CachedFile.CachePathBeyondCacheDir | s3fs_download/core.py:120-123 | for a relative key that does not end in '/', the cache file's path is longer than its directory's and does not end in '/' |
| CachedFile.CachePathNotMadeByMakeDirs | s3fs_download/core.py:120-123 | for such a key, `makedirs` on the cache directory never creates the cache file's path as a directory |
| Paths.DirsOfWithin | s3fs_download/core.py:122 | no directory `os.makedirs(p)` creates is longer than `p` |
| CachedFile.CachePathInCacheDir | s3fs_download/core.py:120-123 | for a relative key, the cache file `dir/key` is the created directory followed by the key's last component |
| LocalFs.MakeDirs | s3fs_download/core.py:121-122 | creating the cache directory succeeds exactly when none of the directories to create is an existing file; it then exists, and no file changes |
| LocalFs.MakeDirsIdempotent | s3fs_download/core.py:122 | creating an existing directory tree again changes nothing and does not fail (`exist_ok=True`) |
| LocalFs.WriteBytes | s3fs_download/core.py:133 | a write puts the data at the cursor, keeps the bytes before it, and moves the cursor past it |
| LocalFs.WriteConcat | s3fs_download/core.py:132-134 | two consecutive writes equal one write of their concatenation |
| LocalFs.ReadAll | s3fs_download/core.py:71-72 | `read()` returns everything from the cursor to the end and leaves the cursor at the end |
| LocalFs.ReadUpTo | s3fs_download/core.py:73-74 | `read(n)` returns at most n bytes from the cursor, fewer only at end of file |
| LocalFs.ReadLine | s3fs_download/core.py:85 | `readline()` returns the bytes from the cursor through the first newline, or the rest of the file when no newline follows; it is empty only at end of file |
| Remote.GetObject | s3fs_download/core.py:130 | `get_object` yields a fresh stream over the object exactly when it exists, otherwise a client error |
| Remote.ReadBody | s3fs_download/core.py:131 | a body read returns at most `amt` of the next bytes; it returns nothing only when `amt` is 0 or the body is exhausted; the request is logged |
| Transfer.Drain | s3fs_download/core.py:131-134 | the copy loop keeps the body's data, keeps the file's path and closed flag, and asks only for chunks of exactly `amt` bytes, at least once |
| Transfer.DrainRequestCount | s3fs_download/core.py:131-134 | the loop stops at the first empty read: with a positive chunk size it makes one request per delivered chunk of `Min(amt, delivery)` bytes, rounded up, plus one final empty request; with chunk size 0 it makes exactly one request |
| Transfer.CeilDivBounds | s3fs_download/core.py:131-134 | the chunk count used for that is `n / k` rounded up: the least number of `k`-byte reads that covers `n` bytes |
| Transfer.DrainCopiesRest | s3fs_download/core.py:131-134 | for every positive chunk size the loop writes exactly the unread rest of the body and exhausts it; with chunk size 0 it writes nothing |
| Transfer.CopyLoop | s3fs_download/core.py:131-134 | the while loop ends in the state `Drain` describes, so the local file holds exactly the remote bytes for any positive chunk size |
| CachedFile.GetTmp | s3fs_download/core.py:118-125 | with a cache directory: the parent directory exists afterwards and `dir/key` is created empty (truncated) and opened at 0. Without one: an anonymous empty file and an unchanged filesystem. Failures are FileExistsError or IsADirectoryError, and they create no file |
| CachedFile.GetTmpSucceeds | s3fs_download/core.py:118-125 | `_get_tmp` always succeeds without a cache directory. With one, it succeeds exactly when two things hold. First, the directory to create already exists, or none of its components is a file. Second, the cache path neither is a directory nor becomes one through `makedirs` |
| CachedFile.GetTmpSucceedsOnEmptyDisk | s3fs_download/core.py:118-123 | on an empty disk, `_get_tmp` succeeds for every cache directory and every relative key that does not end in '/' |
| CachedFile.GetTmpOnExistingDir | s3fs_download/core.py:119-123 | once the cache directory exists, `_get_tmp` creates no directory: it raises IsADirectoryError on a directory at the cache path and otherwise truncates the file there |
| CachedFile.GetTmpIdempotent | s3fs_download/core.py:119-123 | preparing the same local store twice fails or succeeds alike and leaves the same filesystem |
| CachedFile.GetTmpAgainAfterSuccess | s3fs_download/core.py:119-123 | after `_get_tmp` succeeded, running it again gives the same file and changes nothing |
| CachedFile.GetTmpAgainAfterFailure | s3fs_download/core.py:119-123 | after `_get_tmp` failed, running it again on what is left raises the same error and leaves the filesystem as the first run left it |
| CachedFile.RebindTmp | s3fs_download/core.py:129 | rebinding `_tmp` leaves `_file`'s object as it was |
| CachedFile.FetchInto | s3fs_download/core.py:129-136 | the fetch-and-copy succeeds exactly when the object exists, touches only `_tmp` and keeps its path |
| CachedFile.Download | s3fs_download/core.py:127-136 | a download never changes the remote store or `_file`'s object, and changes no handle field but `_tmp` |
| CachedFile.GetFile | s3fs_download/core.py:138-147 | `_get_file` returns a real file (never none); when it returns `_tmp`, `_tmp` exists; it never clears `_downloaded` |
| CachedFile.DownloadOnce | s3fs_download/core.py:143-145 | an already downloaded handle changes nothing; otherwise the handle is marked downloaded exactly when the download returned normally, and only `_tmp`, `_file` and the flag can change |
| CachedFile.RewindTmp | s3fs_download/core.py:146-147 | `_get_file` hands out `_tmp` exactly when the download step succeeded and `_tmp` exists and is open, and then `_tmp` is rewound to 0; nothing else changes |
| CachedFile.Construct | s3fs_download/core.py:37-58 | any mode but 'rb' fails with "File mode must be 'rb'" and changes nothing. The buffer size is always 256 MiB. A lazy handle starts unresolved and changes nothing; an eager one is resolved and marked downloaded |
| CachedFile.Open | s3fs_download/core.py:25-26 | `open` builds a handle in mode 'rb' with the default buffer size; a lazy open touches nothing |
| CachedFile.Resolve | s3fs_download/core.py:65-66 | an already resolved handle is left as it is; success leaves `_file` set, failure leaves it unset |
| CachedFile.Read | s3fs_download/core.py:60-74 | a successful read leaves the backing file closed; the handle's `closed` flag and settings are untouched |
| CachedFile.ReadResolved | s3fs_download/core.py:67-74 | after resolution, a successful read leaves the backing file closed and changes nothing else in the world or the handle's settings |
| CachedFile.Readline | s3fs_download/core.py:76-85 | a successful readline leaves the backing file open |
| CachedFile.ReadlineResolved | s3fs_download/core.py:82-85 | after resolution, a successful readline leaves the backing file open and changes nothing else in the world or the handle's settings |
| CachedFile.Write | s3fs_download/core.py:98-102 | `write` raises NameError and changes nothing |
| CachedFile.Flush | s3fs_download/core.py:104-108 | `flush` raises NameError and changes nothing |
| CachedFile.WriteIntended | s3fs_download/core.py:149-150 | the intended `write` raises the read-only NotImplementedError and changes nothing |
| CachedFile.FlushIntended | s3fs_download/core.py:149-150 | the intended `flush` raises the read-only NotImplementedError and changes nothing |
| CachedFile.WriteMissesReadOnlyError | s3fs_download/core.py:98-108 | as written, `write` and `flush` raise a different error than intended, with the same (absent) effect |
| CachedFile.Close | s3fs_download/core.py:110-116 | `close` sets `closed` and closes the backing file if there is one; nothing else changes |
| HandleProperties.FetchIntoCopiesObject | s3fs_download/core.py:130-134 | a fetch of an existing object writes the whole object into `_tmp`, writes a named `_tmp` through to disk, and logs one fetch with `buf_size` on every request: one per delivered chunk and a final empty one |
| HandleProperties.FetchIntoFreshTmp | s3fs_download/core.py:129-134 | copying an existing object into a freshly truncated `_tmp` leaves it holding exactly the object, positioned at its end, written through to its path when it has one; one fetch is logged, with `buf_size` on every request and one request per delivered chunk plus the final empty one |
| HandleProperties.DownloadFillsTmp | s3fs_download/core.py:127-134 | after a download whose local store could be prepared, `_tmp` holds exactly the object at its end, and one fetch is logged, with `buf_size` on every request and one request per delivered chunk plus the final empty one |
| HandleProperties.DownloadWritesCache | s3fs_download/core.py:118-134 | after that download, `dir/key` holds exactly the object whatever it held before, and without a cache directory the filesystem is unchanged |
| HandleProperties.DownloadCopiesObject | s3fs_download/core.py:127-134 | a successful download leaves `_tmp` holding exactly the object. `dir/key` on disk holds exactly the object, whatever it held before. An anonymous download leaves the filesystem unchanged. There is one fetch, with one request per delivered chunk plus the final empty one |
| HandleProperties.DownloadFailures | s3fs_download/core.py:127-136 | a filesystem error propagates unchanged and fetches nothing. A missing object becomes the IOError asking to check the path and permissions, and leaves an empty `dir/key` behind |
| HandleProperties.DownloadFetchBound | s3fs_download/core.py:127-136 | a download asks the store at most once and succeeds whenever the object exists |
| HandleProperties.GetFileReusesCache | s3fs_download/core.py:139-140 | with `use_cache` and an existing `dir/key`, that file is opened read-only with its bytes unchanged, and nothing is downloaded or changed |
| HandleProperties.GetFileDownloads | s3fs_download/core.py:142-147 | otherwise an undownloaded handle downloads once, is marked downloaded, and hands out `_tmp` holding the object, rewound to 0 |
| HandleProperties.GetFileNeverRedownloads | s3fs_download/core.py:143-147 | once `_downloaded` is set, `_get_file` changes nothing in the world; it rewinds and returns `_tmp`, or fails on a missing `_tmp` |
| HandleProperties.GetFileFetchBound | s3fs_download/core.py:138-147 | `_get_file` asks the store at most once, only when not yet downloaded, and a fetch of an existing object marks the handle downloaded |
| HandleProperties.EagerCacheHitMarksDownloaded | s3fs_download/core.py:56-58 | an eager handle that finds the cache file is marked downloaded, although nothing was fetched |
| HandleProperties.EagerOpenDownloads | s3fs_download/core.py:56-58 | an eager handle without a cache hit has downloaded before construction returns; `_file` is `_tmp`, holding the object at offset 0 |
| HandleProperties.ReadFromOpenFile | s3fs_download/core.py:70-74 | `read(-1)` returns the rest of the file. `read(n)` returns at most n bytes from the cursor, fewer only at the end. Other negative lengths raise ValueError. The backing file is closed afterwards either way |
| HandleProperties.ReadAllFromOpenFile | s3fs_download/core.py:70-72 | `read(-1)` on an open backing file returns the rest of the file and leaves the file closed at its end |
| HandleProperties.ReadAllResolved | s3fs_download/core.py:70-72 | on a resolved, open backing file, `read(-1)` returns the rest of the file and leaves it closed at its end |
| HandleProperties.ReadSomeResolved | s3fs_download/core.py:70-74 | on a resolved, open backing file, `read(n)` returns what `f.read(n)` returns and leaves the file closed just past those bytes |
| HandleProperties.ReadSomeFromOpenFile | s3fs_download/core.py:70-74 | `read(n)` on an open backing file returns what `f.read(n)` returns and leaves the file closed just past those bytes |
| HandleProperties.ReadNegativeFromOpenFile | s3fs_download/core.py:70-74 | a length below -1 raises ValueError, and the file is closed on the way out |
| HandleProperties.ReadlineFromOpenFile | s3fs_download/core.py:76-85 | `readline()` on an open backing file returns that file's next line, through the first newline or to the end. It leaves the file open, with the cursor just past the line |
| HandleProperties.ReadFromClosedFile | s3fs_download/core.py:67-68 | a read or readline on a closed backing file raises "Cache closed" and changes nothing |
| HandleProperties.SecondReadFails | s3fs_download/core.py:70 | after any successful read, the next read on the same handle raises "Cache closed" |
| HandleProperties.ReadlineThenReadAll | s3fs_download/core.py:76-85 | readline then read returns, concatenated, exactly what a single full read would |
| HandleProperties.CloseIdempotent | s3fs_download/core.py:110-116 | closing twice equals closing once, and leaves `closed` true |
| HandleProperties.ReadAfterCloseFails | s3fs_download/core.py:110-116 | after close, a handle that had a backing file refuses read and readline with "Cache closed" |
| HandleProperties.ClosedLazyHandleStillDownloads | s3fs_download/core.py:65-68 | a lazy handle closed before its first read still downloads on that read and returns the object |
| HandleProperties.ResolveFetchBound | s3fs_download/core.py:65-66 | resolving asks the store at most once, never after a download |
| HandleProperties.ApplyFetchBound | s3fs_download/core.py:60-116 | any single call asks the store at most once, never after a download |
| HandleProperties.RunFetchesAtMostOnce | s3fs_download/core.py:143-145 | over any sequence of calls, a handle on an existing object asks the store at most once, and never once it is marked downloaded |
| HandleProperties.OpenedHandleFetchesAtMostOnce | s3fs_download/core.py:56-58 | a handle returned by `open` on an existing object asks the store at most once over its whole life, lazy or eager |
| Scenarios.OpenReadReturnsRemote | tests/test_core.py:25-40 | with no cache file to reuse, `open(path).read()` returns exactly the remote object. With a cache directory, `dir/key` then holds exactly the object |
| Scenarios.LazyOpenReadReturnsRemote | s3fs_download/core.py:60-72 | a lazy handle without a cache hit downloads on its first `read()`, which returns exactly the remote object |
| Scenarios.EagerOpenReadReturnsRemote | s3fs_download/core.py:56-72 | an eager handle without a cache hit downloads during construction, and its first `read()` returns exactly the remote object without touching the world again |
| Scenarios.OpenReadReusesCache | tests/test_core.py:62-73 | with `use_cache` and an existing `dir/key`, `open(path).read()` returns that file verbatim and touches neither disk nor store |
| Scenarios.FailedFirstRead | s3fs_download/core.py:118-136 | with `use_cache` and a cache directory, a lazy handle's first read of a missing object raises the download IOError, leaves `_file` unset, and leaves `dir/key` empty |
| Scenarios.UnresolvedReadHitsCache | s3fs_download/core.py:65-72 | with `use_cache`, `read()` on a handle whose `_file` is unset returns an existing `dir/key` verbatim and changes nothing in the world |
| Scenarios.FailedFetchThenCacheServesEmpty | s3fs_download/core.py:118-147 | with `use_cache` and a cache directory, a failed fetch leaves an empty `dir/key`. The next read on that handle and the read of a later `open` return no bytes, without asking the store |
| Scenarios.GetTmpStaysUsable | s3fs_download/core.py:119-123 | once the local store could be prepared, it can be prepared again whatever the files then hold |
| Scenarios.AlteredCacheIsRefetched | tests/test_core.py:45-56 | without `use_cache`, overwriting `dir/key` between two opens does not matter: the second read returns the remote object again |
| Scenarios.AlteredCacheIsServed | tests/test_core.py:62-73 | with `use_cache`, the second open returns the overwritten `dir/key` bytes and fetches nothing |

## Left out

- `readlines` (s3fs_download/core.py:87-96) is not modelled. On a lazy handle, line 92 stores the bound method `_get_file` itself instead of calling it, so the next line fails, because a method object has no `closed`. No coherent behaviour is left to state.
- The `force_refresh` parameters of `read` and `_get_file` are not modelled. Every caller passes the default, False.
- `split_path` and the `path` string are not modelled: handles take the (bucket, key) pair directly. `s3_additional_kwargs` is not modelled either.
- The `S3FileSystem`/`S3File` base classes, credentials, and botocore are replaced by the abstract store and stream. Only a missing object is modelled as a client error. Transport errors during body reads (timeouts, resets) are not modelled.
- The filesystem is simplified. Paths are POSIX strings. Directories are compared after stripping trailing '/', and no other normalisation is done. Opening for writing fails only on a directory, not on a missing parent. Every `makedirs` failure is reported as FileExistsError.
- Output buffering is not modelled: a named file's bytes are written through when the copy ends. Deleting an anonymous temporary file on close is not modelled, since it never reaches the filesystem map.
- The handle's context-manager protocol and garbage collection are not modelled; `close` is modelled directly.
- LocalFs.FileState: an open file object carries its own copy of the bytes, not a view of the file on disk. Python's 'rb' and 'wb+' objects read from disk once their buffer is empty, for example after the `seek(0)` at s3fs_download/core.py:146. So the model does not show an open handle seeing a later change to `dir/key`. Such a change can come from another program overwriting the file, or from a second handle on the same key truncating and refilling it (s3fs_download/core.py:123).
- LocalFs.WriteBytes: a local write always succeeds. In Python, an error writing the cache file during the copy (s3fs_download/core.py:133), such as a full disk, propagates out of `_download` unchanged. The model has no such error path.
- Concurrency is not modelled: the code is single-threaded.
- Transfer.Drain: its own contract does not count the requests. The count, and so the stop at the first empty read, is stated by `DrainRequestCount`.
- CachedFile.Download: its own contract states only what it leaves untouched. Its behaviour is stated by `DownloadCopiesObject`, `DownloadFailures` and `DownloadFetchBound`.
- CachedFile.GetFile: its own contract states only what it keeps. Its behaviour is stated by `GetFileReusesCache`, `GetFileDownloads`, `GetFileNeverRedownloads` and `GetFileFetchBound`.
- CachedFile.Read: its own contract states only the closing of the backing file. What it returns is stated by `ReadFromOpenFile`, `ReadFromClosedFile` and `SecondReadFails`.
- CachedFile.Readline: what it returns is stated by `ReadlineFromOpenFile`, `ReadFromClosedFile` and `ReadlineThenReadAll`.
- CachedFile.ReadResolved: its own contract states only the closing of the backing file. What it returns is stated by `ReadAllResolved` and `ReadSomeResolved`.
- CachedFile.ReadlineResolved: what it returns is stated by `ReadlineFromOpenFile`.
- CachedFile.Read: `read(None)` is not modelled. The length is an integer, and Python's `f.read(None)` (s3fs_download/core.py:74) behaves like `read(-1)`.
- Where the documented intent and the code differ, the model follows the code. Reads after `close` are refused only when a backing file exists. A cache hit on an eager handle sets `_downloaded`. `write` and `flush` raise NameError.

## Findings

| source | as written | input that shows it | evidently intended | confidence | as-written member | corrected member |
|---|---|---|---|---|---|---|
| s3fs_download/core.py:98-108 | `write` and `flush` call the bare name `_read_only()`. That function is defined in the class body, so it is a class attribute and not a global, and the call raises NameError | any call `handle.write(b'x')` or `handle.flush()` | raise NotImplementedError("DownloadedS3File is read-only. Use s3fs.S3File for writes.") (lines 149-150) | high; not executed | CachedFile.Write | CachedFile.WriteIntended |

=== FILE: base.dfy ===
/** Shared vocabulary: bytes, the Option/Result wrappers, and the Python
    exceptions the downloaded-file handle can raise. */
module Base {

  /** One byte of file or object content. */
  newtype byte = x: int | 0 <= x < 256

  type Bytes = seq<byte>

  /** The byte `b'\n'` that ends a line. */
  const Newline: byte := 10

  datatype Option<+T> = None | Some(value: T)

  datatype Result<+T, +E> = Ok(value: T) | Err(error: E)

  /** The exceptions that reach a caller of the handle. Each carries the
      message (or name, or path) Python attaches to it. */
  datatype Error =
    | NotImplementedError(message: string)
    | NameError(name: string)
    | IOError(message: string)
    | ValueError(message: string)
    | AttributeError(message: string)
    | FileExistsError(path: string)
    | IsADirectoryError(path: string)

  /** Raised by the constructor for any mode other than 'rb'. */
  const ModeMessage: string := "File mode must be 'rb'"

  /** Raised by the read family once the backing file is closed. */
  const CacheClosedMessage: string := "Cache closed"

  /** What a remote client error during a download is turned into. */
  const DownloadFailedMessage: string :=
    "Couldn't download file. Verify that your S3 path is valid and that you have appropriate permissions."

  /** The message of the read-only error the write path was meant to raise. */
  const ReadOnlyMessage: string :=
    "DownloadedS3File is read-only. Use s3fs.S3File for writes."

  function Min(a: int, b: int): int
  {
    if a <= b then a else b
  }

  function Max(a: int, b: int): int
  {
    if a <= b then b else a
  }

  /** Adjacent slices of a sequence concatenate to the slice they cover. */
  lemma SliceConcat<T>(s: seq<T>, i: nat, j: nat)
    requires i <= j <= |s|
    ensures s[i..j] + s[j..] == s[i..]
  {
  }
}

=== FILE: cached_file.dfy ===
/** `S3Downloader` and `DownloadedS3File`: a read-only handle on a remote
    object that downloads the object into a local file (a cache file under
    the configured directory, or an anonymous temporary file) and serves
    reads from that file. The handle is a value; every operation takes the
    world and the handle and returns both, updated, with its result. */
module CachedFile {
  import opened Base
  import opened Paths
  import opened LocalFs
  import opened Remote
  import opened Transfer

  /** `DEFAULT_BUFFER_SIZE`: 256 MiB, the `amt` of every chunk request. */
  const DefaultBufferSize: nat := 0x1000_0000

  /** The downloader's settings (`S3Downloader.__init__`): the cache
      directory (empty for anonymous temporary files), whether downloads
      wait for the first read, and whether an existing cache file is reused
      without looking at the remote object. */
  datatype Config = Config(dir: Path, lazy: bool, useCache: bool)

  /** What `_file` refers to: nothing yet, a file object of its own (the
      cache file opened read-only), or the very object `_tmp` holds. */
  datatype FileRef = NoFile | Own(obj: FileObject) | SharedTmp

  datatype HandleState = HandleState(
    cfg: Config,
    id: ObjectId,
    mode: string,
    bufSize: nat,
    closed: bool,
    file: FileRef,
    tmp: Option<FileObject>,
    downloaded: bool)

  /** `_file` can only share `_tmp`'s object when there is one. */
  type Handle = h: HandleState | h.file.SharedTmp? ==> h.tmp.Some?
    witness HandleState(Config("", false, false), ObjectId("", ""), "rb", DefaultBufferSize, false, NoFile, None, false)

  /** Everything outside the handle: the remote store, the local
      filesystem, and the log of `get_object` calls made so far. */
  datatype World = World(store: RemoteStore, fs: FileSystem, fetches: seq<Fetch>)

  /** A handle operation's outcome: the world and handle afterwards (changed
      even when the operation raised) and its return value or exception. */
  datatype Step<T> = Step(world: World, handle: Handle, result: Result<T, Error>)

  /** The constructor's outcome: the world afterwards and the new handle,
      or the exception construction raised. */
  datatype Opened = Opened(world: World, result: Result<Handle, Error>)

  /** The cache file's location, `os.path.join(dir, key)`. */
  function CachePath(cfg: Config, key: string): Path
  {
    Join(cfg.dir, key)
  }

  /** The directory created for the cache file:
      `os.path.join(dir, '/'.join(key.split('/')[0:-1]))`. */
  function CacheDir(cfg: Config, key: string): Path
  {
    Join(cfg.dir, Parent(key))
  }

  /** Where the cache lives: an absolute key ignores `dir`; a relative key
      puts the cache file and its directory under `dir`, the file being
      `dir`, at most one '/', then the key; the file's path ends with the
      key and the directory's path ends with the key's parent. */
  lemma CacheLayout(cfg: Config, key: string)
    ensures |key| > 0 && key[0] == Sep ==> CachePath(cfg, key) == key
    ensures |key| == 0 || key[0] != Sep ==>
              && |cfg.dir| <= |CachePath(cfg, key)| && CachePath(cfg, key)[..|cfg.dir|] == cfg.dir
              && |cfg.dir| <= |CacheDir(cfg, key)| && CacheDir(cfg, key)[..|cfg.dir|] == cfg.dir
              && |cfg.dir| + |key| <= |CachePath(cfg, key)| <= |cfg.dir| + |key| + 1
              && (|CachePath(cfg, key)| > |cfg.dir| + |key| ==> CachePath(cfg, key)[|cfg.dir|] == Sep)
    ensures |key| <= |CachePath(cfg, key)| && CachePath(cfg, key)[|CachePath(cfg, key)| - |key|..] == key
    ensures var parent := Parent(key);
            |parent| <= |CacheDir(cfg, key)| && CacheDir(cfg, key)[|CacheDir(cfg, key)| - |parent|..] == parent
  {
    var parent := Parent(key);
    if |parent| > 0 {
      assert parent[0] == key[0];
    }
  }

  /** The cache file lies directly in the directory `_get_tmp` creates for
      it: for a relative key, `dir/key` is that directory followed by the
      key's last component (after one '/' when the key has a parent). */
  lemma CachePathInCacheDir(cfg: Config, key: string)
    requires |key| == 0 || key[0] != Sep
    ensures Sep in key ==> CachePath(cfg, key) == CacheDir(cfg, key) + [Sep] + LastPart(key)
    ensures Sep !in key ==> CachePath(cfg, key) == CacheDir(cfg, key) + key
  {
    ParentCutsAtLastSep(key);
    var parent := Parent(key);
    if Sep in key {
      var tail := [Sep] + LastPart(key);
      assert key == parent + tail;
      JoinAppends(cfg.dir, parent, tail);
    } else {
      assert key == parent + key;
      JoinAppends(cfg.dir, parent, key);
    }
  }

  /** The file object `_file` refers to, if any. */
  function Backing(h: Handle): (f: Option<FileObject>)
    ensures f.None? <==> h.file.NoFile?
  {
    match h.file
    case NoFile => None
    case Own(obj) => Some(obj)
    case SharedTmp => h.tmp
  }

  /** The handle with the object `_file` refers to replaced by `f`. */
  function WithBacking(h: Handle, f: FileObject): (g: Handle)
    requires !h.file.NoFile?
    ensures Backing(g) == Some(f)
    ensures g.cfg == h.cfg && g.id == h.id && g.bufSize == h.bufSize
    ensures g.closed == h.closed && g.downloaded == h.downloaded
  {
    match h.file
    case Own(_) => h.(file := Own(f))
    case SharedTmp => h.(tmp := Some(f))
  }

  /** The local store a download writes into and the filesystem after
      preparing it. */
  datatype Local = Local(fs: FileSystem, file: Result<FileObject, Error>)

  /** `_get_tmp`: with a cache directory, make sure the key's parent
      directory exists and open `dir/key` truncated for writing; without
      one, open an anonymous temporary file. */
  function GetTmp(cfg: Config, fs: FileSystem, key: string): (r: Local)
    ensures cfg.dir == "" ==> r == Local(fs, Ok(Fresh(None, [])))
    ensures cfg.dir != "" && r.file.Ok? ==>
              && r.file.value == Fresh(Some(CachePath(cfg, key)), [])
              && r.fs.files == fs.files[CachePath(cfg, key) := []]
              && IsDir(r.fs, CacheDir(cfg, key))
              && !IsDir(r.fs, CachePath(cfg, key))
    ensures fs.dirs <= r.fs.dirs
    ensures r.file.Err? ==> r.fs.files == fs.files
    ensures r.file.Err? ==>
              || r.file.error == FileExistsError(CacheDir(cfg, key))
              || r.file.error == IsADirectoryError(CachePath(cfg, key))
  {
    if cfg.dir != "" then
      var d := CacheDir(cfg, key);
      var made := if IsDir(fs, d) then Ok(fs) else MakeDirs(fs, d);
      match made
      case Err(e) => Local(fs, Err(e))
      case Ok(fs') =>
        var p := CachePath(cfg, key);
        if IsDir(fs', p) then Local(fs', Err(IsADirectoryError(p)))
        else Local(fs'.(files := fs'.files[p := []]), Ok(Fresh(Some(p), [])))
    else
      Local(fs, Ok(Fresh(None, [])))
  }

  /** Once the cache directory exists, `_get_tmp` creates nothing: it
      fails on a directory at the cache path and otherwise truncates the
      file there. */
  lemma GetTmpOnExistingDir(cfg: Config, fs: FileSystem, key: string)
    requires cfg.dir != "" && IsDir(fs, CacheDir(cfg, key))
    ensures IsDir(fs, CachePath(cfg, key)) ==>
              GetTmp(cfg, fs, key) == Local(fs, Err(IsADirectoryError(CachePath(cfg, key))))
    ensures !IsDir(fs, CachePath(cfg, key)) ==>
              GetTmp(cfg, fs, key) == Local(fs.(files := fs.files[CachePath(cfg, key) := []]), Ok(Fresh(Some(CachePath(cfg, key)), [])))
  {
  }

  /** Truncating a file that is already empty changes nothing. */
  lemma TruncateEmptyKeepsFs(fs: FileSystem, p: Path)
    requires p in fs.files && fs.files[p] == []
    ensures fs.(files := fs.files[p := []]) == fs
  {
    assert fs.files[p := []] == fs.files;
  }

  /** The successful half of `GetTmpIdempotent`: the second run finds the
      directory and the empty file in place and changes nothing. */
  lemma GetTmpAgainAfterSuccess(cfg: Config, fs: FileSystem, key: string)
    requires GetTmp(cfg, fs, key).file.Ok?
    ensures GetTmp(cfg, GetTmp(cfg, fs, key).fs, key) == GetTmp(cfg, fs, key)
  {
    var r := GetTmp(cfg, fs, key);
    if cfg.dir != "" {
      GetTmpOnExistingDir(cfg, r.fs, key);
      TruncateEmptyKeepsFs(r.fs, CachePath(cfg, key));
    }
  }

  /** The failing half of `GetTmpIdempotent`: the second run meets the
      same obstacle, raises the same error and creates nothing more. */
  lemma GetTmpAgainAfterFailure(cfg: Config, fs: FileSystem, key: string)
    requires GetTmp(cfg, fs, key).file.Err?
    ensures GetTmp(cfg, GetTmp(cfg, fs, key).fs, key) == GetTmp(cfg, fs, key)
  {
    var d := CacheDir(cfg, key);
    var p := CachePath(cfg, key);
    if IsDir(fs, d) {
      GetTmpOnExistingDir(cfg, fs, key);
    } else if MakeDirs(fs, d).Ok? {
      var fs1 := MakeDirs(fs, d).value;
      MakeDirsIdempotent(fs, d);
      assert GetTmp(cfg, fs, key) == Local(fs1, Err(IsADirectoryError(p)));
      if IsDir(fs1, d) {
        GetTmpOnExistingDir(cfg, fs1, key);
      }
    }
  }

  /** Running `_get_tmp` twice in a row fails or succeeds the same way and
      leaves the same filesystem: the directory creation is idempotent and
      the second open truncates the empty file again. */
  lemma GetTmpIdempotent(cfg: Config, fs: FileSystem, key: string)
    ensures GetTmp(cfg, GetTmp(cfg, fs, key).fs, key).file == GetTmp(cfg, fs, key).file
    ensures GetTmp(cfg, GetTmp(cfg, fs, key).fs, key).fs == GetTmp(cfg, fs, key).fs
  {
    if GetTmp(cfg, fs, key).file.Ok? {
      GetTmpAgainAfterSuccess(cfg, fs, key);
    } else {
      GetTmpAgainAfterFailure(cfg, fs, key);
    }
  }

  /** When `_get_tmp` succeeds: always without a cache directory; with one,
      exactly when the directory to create is already a directory or none
      of its components is a file, and the cache path itself is not (and
      will not be made) a directory. */
  lemma GetTmpSucceeds(cfg: Config, fs: FileSystem, key: string)
    ensures cfg.dir == "" ==> GetTmp(cfg, fs, key).file.Ok?
    ensures cfg.dir != "" ==>
              (GetTmp(cfg, fs, key).file.Ok? <==>
                 && (IsDir(fs, CacheDir(cfg, key)) || DirsOf(CacheDir(cfg, key)) !! fs.files.Keys)
                 && Normalize(CachePath(cfg, key)) !in fs.dirs
                 && (IsDir(fs, CacheDir(cfg, key)) || Normalize(CachePath(cfg, key)) !in DirsOf(CacheDir(cfg, key))))
  {
  }

  /** For a relative key that does not end in '/', the cache file's path
      is longer than its directory's and does not end in '/' either. */
  lemma CachePathBeyondCacheDir(cfg: Config, key: string)
    requires cfg.dir != "" && |key| > 0 && key[0] != Sep && key[|key| - 1] != Sep
    ensures |CachePath(cfg, key)| > |CacheDir(cfg, key)| >= 1
    ensures CachePath(cfg, key)[|CachePath(cfg, key)| - 1] != Sep
  {
    CachePathInCacheDir(cfg, key);
    ParentCutsAtLastSep(key);
    if Sep in key {
      assert LastPart(key) != "";
    }
    var p := CachePath(cfg, key);
    assert p[|p| - |key|..] == key;
    assert p[|p| - 1] == key[|key| - 1];
  }

  /** For such a key, `os.makedirs` on the cache directory never creates
      the cache file's path as a directory. */
  lemma CachePathNotMadeByMakeDirs(cfg: Config, key: string)
    requires cfg.dir != "" && |key| > 0 && key[0] != Sep && key[|key| - 1] != Sep
    ensures Normalize(CachePath(cfg, key)) !in DirsOf(CacheDir(cfg, key))
  {
    var p := CachePath(cfg, key);
    CachePathBeyondCacheDir(cfg, key);
    assert Normalize(p) == p;
    if p in DirsOf(CacheDir(cfg, key)) {
      DirsOfWithin(CacheDir(cfg, key), p);
    }
  }

  /** On an empty disk a cache directory can always be prepared for a
      relative key that does not end in '/'. */
  lemma GetTmpSucceedsOnEmptyDisk(cfg: Config, key: string)
    requires cfg.dir != "" && |key| > 0 && key[0] != Sep && key[|key| - 1] != Sep
    ensures GetTmp(cfg, FileSystem(map[], {}), key).file.Ok?
  {
    CachePathNotMadeByMakeDirs(cfg, key);
    GetTmpSucceeds(cfg, FileSystem(map[], {}), key);
  }

  /** `self._tmp = ...`: rebinds `_tmp` to a new file object. If `_file`
      shared the old `_tmp` object it keeps referring to that old object. */
  function RebindTmp(h: Handle, t: FileObject): (g: Handle)
    ensures g.tmp == Some(t) && Backing(g) == Backing(h)
    ensures g == h.(tmp := g.tmp, file := g.file)
  {
    h.(tmp := Some(t), file := if h.file.SharedTmp? then Own(h.tmp.value) else h.file)
  }

  /** The part of `_download` after `_get_tmp`: fetch the object's body
      and copy it into `_tmp` in chunks of `buf_size` bytes, writing through
      to the filesystem when `_tmp` is a named file. A client error becomes
      an IOError. */
  function FetchInto(w: World, h: Handle): (r: Step<()>)
    requires h.tmp.Some?
    ensures r.world.store == w.store
    ensures r.handle == h.(tmp := r.handle.tmp) && r.handle.tmp.Some?
    ensures r.handle.tmp.value.path == h.tmp.value.path
    ensures r.result.Ok? <==> h.id in w.store.objects
  {
    var t := h.tmp.value;
    match GetObject(w.store, h.id)
    case Err(_) =>
      Step(w.(fetches := w.fetches + [Fetch(h.id, [])]), h, Err(IOError(DownloadFailedMessage)))
    case Ok(body) =>
      var d := Drain(body, h.bufSize, t);
      var fs := if t.path.Some? then w.fs.(files := w.fs.files[t.path.value := d.file.contents]) else w.fs;
      Step(World(w.store, fs, w.fetches + [Fetch(h.id, d.body.asked)]), h.(tmp := Some(d.file)), Ok(()))
  }

  /** `_download`: obtain the local store, then fetch and copy. A
      filesystem error from `_get_tmp` propagates as it is; `_tmp` is
      rebound as soon as the local store exists, even if the fetch fails. */
  function Download(w: World, h: Handle): (r: Step<()>)
    ensures r.world.store == w.store
    ensures r.handle == h.(tmp := r.handle.tmp, file := r.handle.file)
    ensures Backing(r.handle) == Backing(h)
    ensures r.result.Ok? ==> r.handle.tmp.Some?
  {
    var local := GetTmp(h.cfg, w.fs, h.id.key);
    match local.file
    case Err(e) => Step(w.(fs := local.fs), h, Err(e))
    case Ok(t) => FetchInto(w.(fs := local.fs), RebindTmp(h, t))
  }

  /** `_get_file`: with `use_cache` set and a file at `dir/key`, open that
      file read-only as it is; otherwise download unless this handle already
      has, then rewind `_tmp` and hand it out. */
  function GetFile(w: World, h: Handle): (r: Step<FileRef>)
    ensures r.world.store == w.store
    ensures r.handle.cfg == h.cfg && r.handle.id == h.id && r.handle.bufSize == h.bufSize
    ensures r.handle.closed == h.closed && r.handle.mode == h.mode
    ensures !h.file.SharedTmp? ==> r.handle.file == h.file
    ensures h.downloaded ==> r.handle.downloaded
    ensures r.result.Ok? ==> !r.result.value.NoFile?
    ensures r.result.Ok? && r.result.value.SharedTmp? ==> r.handle.tmp.Some?
  {
    var p := CachePath(h.cfg, h.id.key);
    if h.cfg.useCache && IsFile(w.fs, p) then
      Step(w, h, Ok(Own(Fresh(Some(p), w.fs.files[p]))))
    else
      RewindTmp(DownloadOnce(w, h))
  }

  /** `if not self._downloaded: self._download(); self._downloaded = True`:
      downloads unless the handle already has, and sets the flag only when
      the download returned normally. */
  function DownloadOnce(w: World, h: Handle): (r: Step<()>)
    ensures r.world.store == w.store
    ensures r.handle == h.(tmp := r.handle.tmp, file := r.handle.file, downloaded := r.handle.downloaded)
    ensures !h.file.SharedTmp? ==> r.handle.file == h.file
    ensures h.downloaded ==> r == Step(w, h, Ok(()))
    ensures r.result.Ok? ==> r.handle.downloaded
    ensures r.result.Err? ==> r.handle.downloaded == h.downloaded
  {
    if h.downloaded then Step(w, h, Ok(()))
    else
      var s := Download(w, h);
      if s.result.Ok? then s.(handle := s.handle.(downloaded := true)) else s
  }

  /** `self._tmp.seek(0); return self._tmp` after `DownloadOnce` gave `d`:
      an exception from the download propagates, a `_tmp` of None raises
      Python's AttributeError, and a closed `_tmp` the ValueError of seeking
      a closed file. */
  function RewindTmp(d: Step<()>): (r: Step<FileRef>)
    ensures r.world == d.world
    ensures r.handle == d.handle.(tmp := r.handle.tmp)
    ensures r.result.Ok? <==> d.result.Ok? && d.handle.tmp.Some? && !d.handle.tmp.value.closed
    ensures r.result.Ok? ==> r.result == Ok(SharedTmp) && r.handle.tmp == Some(d.handle.tmp.value.(cursor := 0))
  {
    if d.result.Err? then Step(d.world, d.handle, Err(d.result.error))
    else
      match d.handle.tmp
      case None => Step(d.world, d.handle, Err(AttributeError("'NoneType' object has no attribute 'seek'")))
      case Some(t) =>
        if t.closed then Step(d.world, d.handle, Err(ValueError("seek of closed file")))
        else Step(d.world, d.handle.(tmp := Some(t.(cursor := 0))), Ok(SharedTmp))
  }

  /** The handle `__init__` builds before anything is resolved: mode "rb",
      the default buffer size, open, with no file, no temporary file and
      nothing downloaded. */
  function NewHandle(cfg: Config, id: ObjectId): (h: Handle)
    ensures h.cfg == cfg && h.id == id && h.mode == "rb" && h.bufSize == DefaultBufferSize
    ensures !h.closed && h.file.NoFile? && h.tmp.None? && !h.downloaded
  {
    HandleState(cfg, id, "rb", DefaultBufferSize, false, NoFile, None, false)
  }

  /** `DownloadedS3File.__init__`: refuses any mode but 'rb', ignores the
      `buf_size` argument in favour of `DEFAULT_BUFFER_SIZE`, and unless the
      downloader is lazy resolves the backing file at once, marking the
      handle downloaded even when the file came from the cache. */
  function Construct(cfg: Config, w: World, id: ObjectId, mode: string, bufSize: int): (r: Opened)
    ensures mode != "rb" ==> r == Opened(w, Err(NotImplementedError(ModeMessage)))
    ensures r.result.Ok? ==>
              var h := r.result.value;
              && h.cfg == cfg && h.id == id && h.mode == "rb"
              && h.bufSize == DefaultBufferSize
              && !h.closed
              && (cfg.lazy ==> h.file.NoFile? && h.tmp.None? && !h.downloaded)
              && (!cfg.lazy ==> !h.file.NoFile? && h.downloaded)
    ensures cfg.lazy ==> r.world == w
    ensures mode == "rb" && cfg.lazy ==> r.result.Ok?
    ensures r.world.store == w.store
  {
    if mode != "rb" then Opened(w, Err(NotImplementedError(ModeMessage)))
    else
      var h := NewHandle(cfg, id);
      if cfg.lazy then Opened(w, Ok(h))
      else
        var s := GetFile(w, h);
        if s.result.Err? then Opened(s.world, Err(s.result.error))
        else Opened(s.world, Ok(s.handle.(file := s.result.value, downloaded := true)))
  }

  /** `S3Downloader.open(path)`: a handle in the default mode. */
  function Open(cfg: Config, w: World, id: ObjectId): (r: Opened)
    ensures r.result.Ok? ==> r.result.value.id == id && r.result.value.bufSize == DefaultBufferSize
    ensures cfg.lazy ==> r == Opened(w, Ok(NewHandle(cfg, id)))
  {
    Construct(cfg, w, id, "rb", DefaultBufferSize)
  }

  /** `if not self._file: self._file = self._get_file()`, shared by `read`
      and `readline`. */
  function Resolve(w: World, h: Handle): (r: Step<()>)
    ensures r.world.store == w.store
    ensures r.handle.cfg == h.cfg && r.handle.id == h.id && r.handle.bufSize == h.bufSize
    ensures r.handle.closed == h.closed
    ensures h.downloaded ==> r.handle.downloaded
    ensures !h.file.NoFile? ==> r == Step(w, h, Ok(()))
    ensures r.result.Ok? ==> !r.handle.file.NoFile?
    ensures r.result.Err? ==> r.handle.file.NoFile?
  {
    if !h.file.NoFile? then Step(w, h, Ok(()))
    else
      var s := GetFile(w, h);
      if s.result.Err? then Step(s.world, s.handle, Err(s.result.error))
      else Step(s.world, s.handle.(file := s.result.value), Ok(()))
  }

  /** `read(length)`: resolves the backing file if needed, then reads from
      it as `ReadResolved` says. */
  function Read(w: World, h: Handle, length: int): (r: Step<Bytes>)
    ensures r.world == Resolve(w, h).world
    ensures r.handle.cfg == h.cfg && r.handle.id == h.id && r.handle.bufSize == h.bufSize
    ensures r.handle.closed == h.closed && r.handle.downloaded == Resolve(w, h).handle.downloaded
    ensures r.result.Ok? ==> !r.handle.file.NoFile? && Backing(r.handle).value.closed
  {
    ReadResolved(Resolve(w, h), length)
  }

  /** The rest of `read` once `_file` is resolved (or resolving raised):
      refuses a closed backing file and returns everything from the cursor
      (`length == -1`) or at most `length` bytes. The `with` block closes
      the backing file on the way out, whatever happened inside. */
  function ReadResolved(s: Step<()>, length: int): (r: Step<Bytes>)
    requires s.result.Ok? ==> !s.handle.file.NoFile?
    ensures r.world == s.world
    ensures r.handle.cfg == s.handle.cfg && r.handle.id == s.handle.id && r.handle.bufSize == s.handle.bufSize
    ensures r.handle.closed == s.handle.closed && r.handle.downloaded == s.handle.downloaded
    ensures r.result.Ok? ==> !r.handle.file.NoFile? && Backing(r.handle).value.closed
  {
    if s.result.Err? then Step(s.world, s.handle, Err(s.result.error))
    else
      var f := Backing(s.handle).value;
      if f.closed then Step(s.world, s.handle, Err(IOError(CacheClosedMessage)))
      else if length < -1 then
        Step(s.world, WithBacking(s.handle, f.(closed := true)), Err(ValueError("read length must be non-negative or -1")))
      else
        var out := if length == -1 then ReadAll(f) else ReadUpTo(f, length);
        Step(s.world, WithBacking(s.handle, out.file.(closed := true)), Ok(out.data))
  }

  /** `readline()`: as `read`, but returns the next line and leaves the
      backing file open. */
  function Readline(w: World, h: Handle): (r: Step<Bytes>)
    ensures r.world == Resolve(w, h).world
    ensures r.handle.cfg == h.cfg && r.handle.id == h.id && r.handle.bufSize == h.bufSize
    ensures r.handle.closed == h.closed && r.handle.downloaded == Resolve(w, h).handle.downloaded
    ensures r.result.Ok? ==> !r.handle.file.NoFile? && !Backing(r.handle).value.closed
  {
    ReadlineResolved(Resolve(w, h))
  }

  /** The rest of `readline` once `_file` is resolved. */
  function ReadlineResolved(s: Step<()>): (r: Step<Bytes>)
    requires s.result.Ok? ==> !s.handle.file.NoFile?
    ensures r.world == s.world
    ensures r.handle.cfg == s.handle.cfg && r.handle.id == s.handle.id && r.handle.bufSize == s.handle.bufSize
    ensures r.handle.closed == s.handle.closed && r.handle.downloaded == s.handle.downloaded
    ensures r.result.Ok? ==> !r.handle.file.NoFile? && !Backing(r.handle).value.closed
  {
    if s.result.Err? then Step(s.world, s.handle, Err(s.result.error))
    else
      var f := Backing(s.handle).value;
      if f.closed then Step(s.world, s.handle, Err(IOError(CacheClosedMessage)))
      else
        var out := ReadLine(f);
        Step(s.world, WithBacking(s.handle, out.file), Ok(out.data))
  }

  /** `write(...)`: the body calls `_read_only()` as a bare name, but that
      function is a class attribute and not a global, so the call raises
      NameError before the intended read-only error. Nothing changes. */
  function Write(w: World, h: Handle, data: Bytes): (r: Step<()>)
    ensures r.world == w && r.handle == h
    ensures r.result == Err(NameError("_read_only"))
  {
    Step(w, h, Err(NameError("_read_only")))
  }

  /** `flush()`: raises like `write` and changes nothing. */
  function Flush(w: World, h: Handle): (r: Step<()>)
    ensures r.world == w && r.handle == h
    ensures r.result == Err(NameError("_read_only"))
  {
    Step(w, h, Err(NameError("_read_only")))
  }

  /** `write` as its docstring and `_read_only` intend: the read-only
      NotImplementedError, with nothing changed. */
  function WriteIntended(w: World, h: Handle, data: Bytes): (r: Step<()>)
    ensures r.world == w && r.handle == h
    ensures r.result == Err(NotImplementedError(ReadOnlyMessage))
  {
    Step(w, h, Err(NotImplementedError(ReadOnlyMessage)))
  }

  /** `flush` as intended: the read-only NotImplementedError. */
  function FlushIntended(w: World, h: Handle): (r: Step<()>)
    ensures r.world == w && r.handle == h
    ensures r.result == Err(NotImplementedError(ReadOnlyMessage))
  {
    Step(w, h, Err(NotImplementedError(ReadOnlyMessage)))
  }

  /** The read-only error the write path was written to raise is never
      raised: every write and flush fails with a NameError instead, while
      the intended versions raise the read-only error. Neither changes the
      world or the handle. */
  lemma WriteMissesReadOnlyError(w: World, h: Handle, data: Bytes)
    ensures Write(w, h, data).result != WriteIntended(w, h, data).result
    ensures Flush(w, h).result != FlushIntended(w, h).result
    ensures Write(w, h, data).handle == WriteIntended(w, h, data).handle == h
    ensures Write(w, h, data).world == WriteIntended(w, h, data).world == w
  {
  }

  /** `close()`: closes the backing file if there is one and marks the
      handle closed. A lazy handle that never read has no backing file, so
      only the flag changes. */
  function Close(h: Handle): (g: Handle)
    ensures g.closed
    ensures g.cfg == h.cfg && g.id == h.id && g.bufSize == h.bufSize && g.downloaded == h.downloaded
    ensures g.file.NoFile? <==> h.file.NoFile?
    ensures !h.file.NoFile? ==> Backing(g) == Some(Backing(h).value.(closed := true))
    ensures h.file.NoFile? ==> g == h.(closed := true)
    ensures g == h.(closed := true, file := g.file, tmp := g.tmp)
    ensures h.file.Own? ==> g.file.Own? && g.tmp == h.tmp
    ensures h.file.SharedTmp? ==> g.file.SharedTmp?
  {
    var g := if h.file.NoFile? then h else WithBacking(h, Backing(h).value.(closed := true));
    g.(closed := true)
  }
}

=== FILE: handle_properties.dfy ===
/** Properties of the downloaded-file handle that relate several calls or
    spell out one call's behaviour case by case: what a download leaves in
    the local store, when the cache is reused, how often the remote store
    is asked, and what reading and closing do to the backing file. */
module HandleProperties {
  import opened Base
  import opened LocalFs
  import opened Remote
  import opened Transfer
  import opened CachedFile

  /** `after` is `before` with exactly one more fetch at the end. */
  predicate AppendsOne(before: seq<Fetch>, after: seq<Fetch>)
  {
    |after| == |before| + 1 && after[..|before|] == before
  }

  /** A fetch of `id`, an object of `size` bytes served at most `delivery`
      bytes per read, whose body was read with `amt` on every request: one
      request per delivered chunk and a final, empty one that ends the
      loop. */
  predicate ChunkedFetch(f: Fetch, id: ObjectId, amt: nat, size: nat, delivery: Positive)
  {
    && f.id == id
    && (forall i :: 0 <= i < |f.amounts| ==> f.amounts[i] == amt)
    && |f.amounts| == (if amt == 0 then 1 else CeilDiv(size, Min(amt, delivery)) + 1)
  }

  /** The handle would open an existing cache file instead of downloading. */
  predicate CacheHit(w: World, h: Handle)
  {
    h.cfg.useCache && IsFile(w.fs, CachePath(h.cfg, h.id.key))
  }

  // ---------------------------------------------------------------------
  // Downloading

  /** With the object present and a positive chunk size, the fetch writes
      the whole object at `_tmp`'s cursor, writes a named `_tmp` through to
      the filesystem, and logs one fetch read in `buf_size` chunks. */
  lemma FetchIntoCopiesObject(w: World, h: Handle)
    requires h.tmp.Some? && h.id in w.store.objects && h.bufSize > 0
    ensures FetchInto(w, h).result == Ok(())
    ensures FetchInto(w, h).handle == h.(tmp := Some(WriteBytes(h.tmp.value, w.store.objects[h.id])))
    ensures h.tmp.value.path.None? ==> FetchInto(w, h).world.fs == w.fs
    ensures h.tmp.value.path.Some? ==>
              FetchInto(w, h).world.fs ==
                w.fs.(files := w.fs.files[h.tmp.value.path.value := WriteBytes(h.tmp.value, w.store.objects[h.id]).contents])
    ensures AppendsOne(w.fetches, FetchInto(w, h).world.fetches)
    ensures ChunkedFetch(FetchInto(w, h).world.fetches[|w.fetches|], h.id, h.bufSize, |w.store.objects[h.id]|, w.store.delivery)
  {
    var body := GetObject(w.store, h.id).value;
    DrainCopiesRest(body, h.bufSize, h.tmp.value);
    DrainRequestCount(body, h.bufSize, h.tmp.value);
    assert body.data[body.pos..] == w.store.objects[h.id];
    var r := FetchInto(w, h);
    assert r.world.fetches[..|w.fetches|] == w.fetches;
  }

  /** Once `_get_tmp` has produced a local store, a download is the fetch
      into that store. */
  lemma DownloadIsFetchInto(w: World, h: Handle)
    requires GetTmp(h.cfg, w.fs, h.id.key).file.Ok?
    ensures Download(w, h) ==
              FetchInto(w.(fs := GetTmp(h.cfg, w.fs, h.id.key).fs), RebindTmp(h, GetTmp(h.cfg, w.fs, h.id.key).file.value))
  {
  }

  /** Fetching into a freshly truncated `_tmp` leaves it holding exactly
      the object, positioned at its end, and writes the same bytes through
      to its file when it has a name. */
  lemma FetchIntoFreshTmp(w: World, h: Handle, t: FileObject)
    requires t.contents == [] && t.cursor == 0 && !t.closed
    requires h.id in w.store.objects && h.bufSize > 0
    ensures FetchInto(w, RebindTmp(h, t)).result == Ok(())
    ensures FetchInto(w, RebindTmp(h, t)).handle.tmp ==
              Some(FileState(t.path, w.store.objects[h.id], |w.store.objects[h.id]|, false))
    ensures t.path.None? ==> FetchInto(w, RebindTmp(h, t)).world.fs == w.fs
    ensures t.path.Some? ==>
              FetchInto(w, RebindTmp(h, t)).world.fs == w.fs.(files := w.fs.files[t.path.value := w.store.objects[h.id]])
    ensures AppendsOne(w.fetches, FetchInto(w, RebindTmp(h, t)).world.fetches)
    ensures ChunkedFetch(FetchInto(w, RebindTmp(h, t)).world.fetches[|w.fetches|], h.id, h.bufSize, |w.store.objects[h.id]|, w.store.delivery)
  {
    var obj := w.store.objects[h.id];
    FetchIntoCopiesObject(w, RebindTmp(h, t));
    assert WriteBytes(t, obj) == FileState(t.path, obj, |obj|, false);
  }

  /** The `_tmp` and fetch-log half of `DownloadCopiesObject`. */
  lemma DownloadFillsTmp(w: World, h: Handle)
    requires GetTmp(h.cfg, w.fs, h.id.key).file.Ok?
    requires h.id in w.store.objects && h.bufSize > 0
    ensures Download(w, h).result == Ok(())
    ensures Download(w, h).handle.tmp ==
              Some(FileState(GetTmp(h.cfg, w.fs, h.id.key).file.value.path, w.store.objects[h.id], |w.store.objects[h.id]|, false))
    ensures AppendsOne(w.fetches, Download(w, h).world.fetches)
    ensures ChunkedFetch(Download(w, h).world.fetches[|w.fetches|], h.id, h.bufSize, |w.store.objects[h.id]|, w.store.delivery)
  {
    var local := GetTmp(h.cfg, w.fs, h.id.key);
    DownloadIsFetchInto(w, h);
    FetchIntoFreshTmp(w.(fs := local.fs), h, local.file.value);
  }

  /** The filesystem half of `DownloadCopiesObject`. */
  lemma DownloadWritesCache(w: World, h: Handle)
    requires GetTmp(h.cfg, w.fs, h.id.key).file.Ok?
    requires h.id in w.store.objects && h.bufSize > 0
    ensures h.cfg.dir == "" ==> Download(w, h).world.fs == w.fs
    ensures h.cfg.dir != "" ==>
              Download(w, h).world.fs ==
                GetTmp(h.cfg, w.fs, h.id.key).fs.(files := w.fs.files[CachePath(h.cfg, h.id.key) := w.store.objects[h.id]])
  {
    var local := GetTmp(h.cfg, w.fs, h.id.key);
    DownloadIsFetchInto(w, h);
    FetchIntoFreshTmp(w.(fs := local.fs), h, local.file.value);
    if h.cfg.dir != "" {
      var p := CachePath(h.cfg, h.id.key);
      var obj := w.store.objects[h.id];
      assert local.file.value.path == Some(p);
      assert local.fs.files == w.fs.files[p := []];
      MapUpdateTwice(w.fs.files, p, [], obj);
    }
  }

  /** Updating a key twice keeps only the second value. */
  lemma MapUpdateTwice<K, V>(m: map<K, V>, k: K, v1: V, v2: V)
    ensures m[k := v1][k := v2] == m[k := v2]
  {
  }

  /** A download that can create its local store and finds the object
      leaves `_tmp` holding exactly the object, positioned at its end; a
      cache file `dir/key` on disk holds exactly the object too (whatever it
      held before), and an anonymous download leaves the filesystem alone.
      The store is asked once, in chunks of `buf_size` bytes. */
  lemma DownloadCopiesObject(w: World, h: Handle)
    requires GetTmp(h.cfg, w.fs, h.id.key).file.Ok?
    requires h.id in w.store.objects && h.bufSize > 0
    ensures Download(w, h).result == Ok(())
    ensures Download(w, h).handle.tmp ==
              Some(FileState(GetTmp(h.cfg, w.fs, h.id.key).file.value.path, w.store.objects[h.id], |w.store.objects[h.id]|, false))
    ensures h.cfg.dir == "" ==> Download(w, h).world.fs == w.fs
    ensures h.cfg.dir != "" ==>
              Download(w, h).world.fs ==
                GetTmp(h.cfg, w.fs, h.id.key).fs.(files := w.fs.files[CachePath(h.cfg, h.id.key) := w.store.objects[h.id]])
    ensures AppendsOne(w.fetches, Download(w, h).world.fetches)
    ensures ChunkedFetch(Download(w, h).world.fetches[|w.fetches|], h.id, h.bufSize, |w.store.objects[h.id]|, w.store.delivery)
  {
    DownloadFillsTmp(w, h);
    DownloadWritesCache(w, h);
  }

  /** How a download fails. A filesystem error while preparing the local
      store propagates unchanged, with nothing fetched and `_tmp` untouched.
      A missing object becomes the IOError advising to check the path and
      permissions, after `_tmp` was rebound to the freshly truncated (so now
      empty) local store and one fetch was logged. */
  lemma DownloadFailures(w: World, h: Handle)
    ensures GetTmp(h.cfg, w.fs, h.id.key).file.Err? ==>
              Download(w, h) == Step(w.(fs := GetTmp(h.cfg, w.fs, h.id.key).fs), h, Err(GetTmp(h.cfg, w.fs, h.id.key).file.error))
    ensures GetTmp(h.cfg, w.fs, h.id.key).file.Ok? && h.id !in w.store.objects ==>
              && Download(w, h).result == Err(IOError(DownloadFailedMessage))
              && Download(w, h).world.fs == GetTmp(h.cfg, w.fs, h.id.key).fs
              && Download(w, h).handle.tmp == Some(GetTmp(h.cfg, w.fs, h.id.key).file.value)
              && Download(w, h).world.fetches == w.fetches + [Fetch(h.id, [])]
    ensures GetTmp(h.cfg, w.fs, h.id.key).file.Ok? && h.id !in w.store.objects && h.cfg.dir != "" ==>
              Download(w, h).world.fs.files[CachePath(h.cfg, h.id.key)] == []
  {
  }

  /** A download asks the store at most once, and when it asks for an
      object that exists it succeeds. */
  lemma DownloadFetchBound(w: World, h: Handle)
    ensures Download(w, h).world.fetches == w.fetches || AppendsOne(w.fetches, Download(w, h).world.fetches)
    ensures Download(w, h).world.fetches != w.fetches && h.id in w.store.objects ==> Download(w, h).result.Ok?
    ensures Download(w, h).handle.id == h.id && Download(w, h).handle.downloaded == h.downloaded
  {
    var local := GetTmp(h.cfg, w.fs, h.id.key);
    if local.file.Ok? {
      var r := Download(w, h);
      assert r.world.fetches[..|w.fetches|] == w.fetches;
    }
  }

  // ---------------------------------------------------------------------
  // Resolving the backing file

  /** With `use_cache` set and a file at `dir/key`, `_get_file` opens that
      file read-only with its bytes as they are, changes nothing and
      fetches nothing. */
  lemma GetFileReusesCache(w: World, h: Handle)
    requires CacheHit(w, h)
    ensures GetFile(w, h) ==
              Step(w, h, Ok(Own(Fresh(Some(CachePath(h.cfg, h.id.key)), w.fs.files[CachePath(h.cfg, h.id.key)]))))
  {
  }

  /** Otherwise a handle that has not downloaded yet downloads: `_file`
      becomes `_tmp`, which holds the object and is rewound to 0, and the
      handle is marked downloaded. */
  lemma GetFileDownloads(w: World, h: Handle)
    requires !CacheHit(w, h) && !h.downloaded
    requires GetTmp(h.cfg, w.fs, h.id.key).file.Ok?
    requires h.id in w.store.objects && h.bufSize > 0
    ensures GetFile(w, h).result == Ok(SharedTmp)
    ensures GetFile(w, h).handle.downloaded
    ensures GetFile(w, h).handle.tmp ==
              Some(Fresh(GetTmp(h.cfg, w.fs, h.id.key).file.value.path, w.store.objects[h.id]))
    ensures GetFile(w, h).world == Download(w, h).world
    ensures AppendsOne(w.fetches, GetFile(w, h).world.fetches)
  {
    DownloadFillsTmp(w, h);
    var s := Download(w, h);
    assert DownloadOnce(w, h) == s.(handle := s.handle.(downloaded := true));
  }

  /** Once `_downloaded` is set, `_get_file` never downloads again: the
      world is left exactly as it was. */
  lemma GetFileNeverRedownloads(w: World, h: Handle)
    requires h.downloaded
    ensures GetFile(w, h).world == w
    ensures !CacheHit(w, h) && h.tmp.Some? && !h.tmp.value.closed ==>
              GetFile(w, h) == Step(w, h.(tmp := Some(h.tmp.value.(cursor := 0))), Ok(SharedTmp))
    ensures !CacheHit(w, h) && h.tmp.None? ==> GetFile(w, h).result.Err? && GetFile(w, h).result.error.AttributeError?
  {
  }

  /** `_get_file` asks the store at most once, only for a handle that has
      not downloaded, and a fetch of an existing object marks the handle
      downloaded. */
  lemma GetFileFetchBound(w: World, h: Handle)
    ensures GetFile(w, h).world.fetches == w.fetches || AppendsOne(w.fetches, GetFile(w, h).world.fetches)
    ensures GetFile(w, h).world.fetches != w.fetches ==>
              !h.downloaded && (h.id in w.store.objects ==> GetFile(w, h).handle.downloaded)
  {
    if !CacheHit(w, h) && !h.downloaded {
      DownloadFetchBound(w, h);
    }
  }

  // ---------------------------------------------------------------------
  // Construction

  /** An eager handle that finds the cache file marks itself downloaded
      although nothing was fetched, and reads from the cache file. */
  lemma EagerCacheHitMarksDownloaded(cfg: Config, w: World, id: ObjectId)
    requires !cfg.lazy && cfg.useCache && IsFile(w.fs, CachePath(cfg, id.key))
    ensures Open(cfg, w, id).world == w
    ensures Open(cfg, w, id).result.Ok?
    ensures Open(cfg, w, id).result.value.downloaded
    ensures Open(cfg, w, id).result.value.tmp.None?
    ensures Open(cfg, w, id).result.value.file ==
              Own(Fresh(Some(CachePath(cfg, id.key)), w.fs.files[CachePath(cfg, id.key)]))
  {
    var h := NewHandle(cfg, id);
    GetFileReusesCache(w, h);
  }

  /** An eager open is `_get_file` on the new handle, which is then marked
      downloaded. */
  lemma EagerOpenIsGetFile(cfg: Config, w: World, id: ObjectId)
    requires !cfg.lazy
    ensures var h := NewHandle(cfg, id);
            var s := GetFile(w, h);
            Open(cfg, w, id) ==
              if s.result.Err? then Opened(s.world, Err(s.result.error))
              else Opened(s.world, Ok(s.handle.(file := s.result.value, downloaded := true)))
  {
  }

  /** An eager handle without a cache hit downloads before the constructor
      returns: `_file` is `_tmp`, holding the object and rewound to 0. */
  lemma EagerOpenDownloads(cfg: Config, w: World, id: ObjectId)
    requires !cfg.lazy && !(cfg.useCache && IsFile(w.fs, CachePath(cfg, id.key)))
    requires GetTmp(cfg, w.fs, id.key).file.Ok? && id in w.store.objects
    ensures Open(cfg, w, id).result.Ok?
    ensures Open(cfg, w, id).result.value.file.SharedTmp?
    ensures Open(cfg, w, id).result.value.downloaded
    ensures Backing(Open(cfg, w, id).result.value) == Some(Fresh(GetTmp(cfg, w.fs, id.key).file.value.path, w.store.objects[id]))
    ensures AppendsOne(w.fetches, Open(cfg, w, id).world.fetches)
  {
    var h := NewHandle(cfg, id);
    GetFileDownloads(w, h);
    EagerOpenIsGetFile(cfg, w, id);
    var s := GetFile(w, h);
    var g := s.handle.(file := SharedTmp, downloaded := true);
    assert Open(cfg, w, id) == Opened(s.world, Ok(g));
    assert Backing(g) == s.handle.tmp;
  }

  // ---------------------------------------------------------------------
  // Reading and closing

  /** A read on a resolved, open backing file returns everything from the
      cursor for length -1, at most `length` bytes from the cursor (fewer
      only at the end of the file) for a non-negative length, and a
      ValueError for any other negative length. Whatever it returns, the
      `with` block leaves the backing file closed with its contents. */
  lemma ReadFromOpenFile(w: World, h: Handle, length: int)
    requires Resolve(w, h).result.Ok? && !Backing(Resolve(w, h).handle).value.closed
    ensures !Read(w, h, length).handle.file.NoFile?
    ensures var f := Backing(Resolve(w, h).handle).value;
            length == -1 ==> Read(w, h, length).result == Ok(f.contents[f.cursor..])
    ensures var f := Backing(Resolve(w, h).handle).value;
            length >= 0 ==>
              && Read(w, h, length).result.Ok?
              && |Read(w, h, length).result.value| <= length
              && Read(w, h, length).result.value == f.contents[f.cursor..f.cursor + |Read(w, h, length).result.value|]
              && (|Read(w, h, length).result.value| < length ==> f.cursor + |Read(w, h, length).result.value| == |f.contents|)
    ensures length < -1 ==> Read(w, h, length).result.Err? && Read(w, h, length).result.error.ValueError?
    ensures var f := Backing(Resolve(w, h).handle).value;
            Backing(Read(w, h, length).handle) == Some(f.(closed := true, cursor := Backing(Read(w, h, length).handle).value.cursor))
  {
    if length == -1 {
      ReadAllFromOpenFile(w, h);
    } else if length >= 0 {
      ReadSomeFromOpenFile(w, h, length);
    } else {
      ReadNegativeFromOpenFile(w, h, length);
    }
  }

  /** `read()` or `read(-1)` on an open backing file: the rest of the file,
      and the file closed at its end. */
  lemma ReadAllFromOpenFile(w: World, h: Handle)
    requires Resolve(w, h).result.Ok? && !Backing(Resolve(w, h).handle).value.closed
    ensures var f := Backing(Resolve(w, h).handle).value;
            && Read(w, h, -1).result == Ok(f.contents[f.cursor..])
            && Backing(Read(w, h, -1).handle) == Some(f.(closed := true, cursor := |f.contents|))
  {
    ReadAllResolved(Resolve(w, h));
  }

  /** `ReadAllFromOpenFile` on the resolved handle. */
  lemma ReadAllResolved(s: Step<()>)
    requires s.result.Ok? && !s.handle.file.NoFile? && !Backing(s.handle).value.closed
    ensures var f := Backing(s.handle).value;
            && ReadResolved(s, -1).result == Ok(f.contents[f.cursor..])
            && Backing(ReadResolved(s, -1).handle) == Some(f.(closed := true, cursor := |f.contents|))
  {
    var out := ReadAll(Backing(s.handle).value);
    assert ReadResolved(s, -1) == Step(s.world, WithBacking(s.handle, out.file.(closed := true)), Ok(out.data));
  }

  /** `read(n)` for n >= 0 on an open backing file: at most n bytes from the
      cursor, fewer only at the end, and the file closed after them. */
  lemma ReadSomeFromOpenFile(w: World, h: Handle, n: nat)
    requires Resolve(w, h).result.Ok? && !Backing(Resolve(w, h).handle).value.closed
    ensures var f := Backing(Resolve(w, h).handle).value;
            var out := ReadUpTo(f, n);
            && Read(w, h, n).result == Ok(out.data)
            && Backing(Read(w, h, n).handle) == Some(f.(closed := true, cursor := f.cursor + |out.data|))
  {
    ReadSomeResolved(Resolve(w, h), n);
  }

  /** `ReadSomeFromOpenFile` on the resolved handle. */
  lemma ReadSomeResolved(s: Step<()>, n: nat)
    requires s.result.Ok? && !s.handle.file.NoFile? && !Backing(s.handle).value.closed
    ensures var f := Backing(s.handle).value;
            var out := ReadUpTo(f, n);
            && ReadResolved(s, n).result == Ok(out.data)
            && Backing(ReadResolved(s, n).handle) == Some(f.(closed := true, cursor := f.cursor + |out.data|))
  {
    var out := ReadUpTo(Backing(s.handle).value, n);
    assert ReadResolved(s, n) == Step(s.world, WithBacking(s.handle, out.file.(closed := true)), Ok(out.data));
  }

  /** Any length below -1: CPython's ValueError, with the file closed by
      the `with` block on the way out. */
  lemma ReadNegativeFromOpenFile(w: World, h: Handle, length: int)
    requires Resolve(w, h).result.Ok? && !Backing(Resolve(w, h).handle).value.closed
    requires length < -1
    ensures var f := Backing(Resolve(w, h).handle).value;
            && Read(w, h, length).result.Err? && Read(w, h, length).result.error.ValueError?
            && Backing(Read(w, h, length).handle) == Some(f.(closed := true))
  {
    var s := Resolve(w, h);
    var f := Backing(s.handle).value;
    assert ReadResolved(s, length) ==
             Step(s.world, WithBacking(s.handle, f.(closed := true)), Err(ValueError("read length must be non-negative or -1")));
  }

  /** A read on a closed backing file raises "Cache closed" and changes
      nothing beyond what resolving did. */
  lemma ReadFromClosedFile(w: World, h: Handle, length: int)
    requires Resolve(w, h).result.Ok? && Backing(Resolve(w, h).handle).value.closed
    ensures Read(w, h, length) == Step(Resolve(w, h).world, Resolve(w, h).handle, Err(IOError(CacheClosedMessage)))
    ensures Readline(w, h) == Step(Resolve(w, h).world, Resolve(w, h).handle, Err(IOError(CacheClosedMessage)))
  {
  }

  /** Because `read` closes the backing file on the way out, the next read
      of any length on the same handle raises "Cache closed" and changes
      nothing. */
  lemma SecondReadFails(w: World, h: Handle, length: int, next: int)
    requires Read(w, h, length).result.Ok?
    ensures Read(Read(w, h, length).world, Read(w, h, length).handle, next) ==
              Step(Read(w, h, length).world, Read(w, h, length).handle, Err(IOError(CacheClosedMessage)))
  {
  }

  /** A readline on a resolved, open backing file is `readline()` on that
      file (the bytes through the first newline, or the rest of the file),
      and leaves it open with the cursor just past the line. */
  lemma ReadlineFromOpenFile(w: World, h: Handle)
    requires Resolve(w, h).result.Ok? && !Backing(Resolve(w, h).handle).value.closed
    ensures var f := Backing(Resolve(w, h).handle).value;
            && Readline(w, h).result == Ok(ReadLine(f).data)
            && Backing(Readline(w, h).handle) == Some(ReadLine(f).file)
  {
    var s := Resolve(w, h);
    var out := ReadLine(Backing(s.handle).value);
    assert ReadlineResolved(s) == Step(s.world, WithBacking(s.handle, out.file), Ok(out.data));
  }

  /** `readline` leaves the backing file open, so a line followed by a full
      read gives back exactly what one full read would have. */
  lemma ReadlineThenReadAll(w: World, h: Handle)
    requires Resolve(w, h).result.Ok? && !Backing(Resolve(w, h).handle).value.closed
    ensures var f := Backing(Resolve(w, h).handle).value;
            var line := Readline(w, h);
            var rest := Read(line.world, line.handle, -1);
            && line.result.Ok? && rest.result.Ok?
            && line.result.value + rest.result.value == f.contents[f.cursor..]
  {
    var s := Resolve(w, h);
    var f := Backing(s.handle).value;
    var out := ReadLine(f);
    var line := Readline(w, h);
    assert line == Step(s.world, WithBacking(s.handle, out.file), Ok(out.data));
    var g := out.file;
    assert Resolve(line.world, line.handle) == Step(line.world, line.handle, Ok(()));
    assert Backing(line.handle) == Some(g) && !g.closed;
    assert Read(line.world, line.handle, -1).result == Ok(ReadAll(g).data);
    SliceConcat(f.contents, f.cursor, g.cursor);
  }

  /** Closing twice is the same as closing once. */
  lemma CloseIdempotent(h: Handle)
    ensures Close(Close(h)) == Close(h)
    ensures Close(h).closed
  {
  }

  /** After `close`, a handle that had a backing file refuses every read. */
  lemma ReadAfterCloseFails(w: World, h: Handle, length: int)
    requires !h.file.NoFile?
    ensures Read(w, Close(h), length) == Step(w, Close(h), Err(IOError(CacheClosedMessage)))
    ensures Readline(w, Close(h)) == Step(w, Close(h), Err(IOError(CacheClosedMessage)))
  {
  }

  /** `read` never looks at the handle's own `closed` flag: a lazy handle
      closed before its first read still downloads on that read and returns
      the object. */
  lemma ClosedLazyHandleStillDownloads(w: World, h: Handle)
    requires h.file.NoFile? && !h.downloaded && !CacheHit(w, h)
    requires GetTmp(h.cfg, w.fs, h.id.key).file.Ok? && h.id in w.store.objects && h.bufSize > 0
    ensures Close(h).closed
    ensures Read(w, Close(h), -1).result == Ok(w.store.objects[h.id])
    ensures AppendsOne(w.fetches, Read(w, Close(h), -1).world.fetches)
  {
    GetFileDownloads(w, Close(h));
  }

  /** Resolving asks the store at most once, only for a handle that has not
      downloaded, and a fetch of an existing object marks it downloaded. */
  lemma ResolveFetchBound(w: World, h: Handle)
    ensures Resolve(w, h).world.fetches == w.fetches || AppendsOne(w.fetches, Resolve(w, h).world.fetches)
    ensures Resolve(w, h).world.fetches != w.fetches ==>
              !h.downloaded && (h.id in w.store.objects ==> Resolve(w, h).handle.downloaded)
    ensures h.downloaded ==> Resolve(w, h).world == w && Resolve(w, h).handle.downloaded
  {
    if h.file.NoFile? {
      GetFileFetchBound(w, h);
      if h.downloaded {
        GetFileNeverRedownloads(w, h);
      }
    }
  }

  // ---------------------------------------------------------------------
  // Any sequence of calls on one handle

  /** The calls a caller can make on a handle. */
  datatype Op = ReadOp(length: int) | ReadlineOp | WriteOp(data: Bytes) | FlushOp | CloseOp

  datatype State = State(world: World, handle: Handle)

  /** The world and handle after one call, whether it returned or raised.
      Writes and flushes are the code as written: they raise a NameError
      and change nothing. */
  function Apply(w: World, h: Handle, op: Op): (s: State)
    ensures s.world.store == w.store && s.handle.id == h.id
    ensures h.downloaded ==> s.handle.downloaded
  {
    match op
    case ReadOp(n) => var r := Read(w, h, n); State(r.world, r.handle)
    case ReadlineOp => var r := Readline(w, h); State(r.world, r.handle)
    case WriteOp(data) => var r := Write(w, h, data); State(r.world, r.handle)
    case FlushOp => var r := Flush(w, h); State(r.world, r.handle)
    case CloseOp => State(w, Close(h))
  }

  /** The world and handle after a sequence of calls. */
  function Run(w: World, h: Handle, ops: seq<Op>): State
    decreases |ops|
  {
    if ops == [] then State(w, h)
    else
      var s := Apply(w, h, ops[0]);
      Run(s.world, s.handle, ops[1..])
  }

  /** One call asks the store at most once, never once the handle has
      downloaded, and a fetch of an existing object marks it downloaded. */
  lemma ApplyFetchBound(w: World, h: Handle, op: Op)
    ensures Apply(w, h, op).world.fetches == w.fetches || AppendsOne(w.fetches, Apply(w, h, op).world.fetches)
    ensures Apply(w, h, op).world.fetches != w.fetches ==>
              !h.downloaded && (h.id in w.store.objects ==> Apply(w, h, op).handle.downloaded)
    ensures h.downloaded ==> Apply(w, h, op).world.fetches == w.fetches
  {
    ResolveFetchBound(w, h);
    var s := Resolve(w, h);
    var a := Apply(w, h, op);
    match op
    case ReadOp(n) =>
      assert a.world == s.world && a.handle.downloaded == s.handle.downloaded;
    case ReadlineOp =>
      assert a.world == s.world && a.handle.downloaded == s.handle.downloaded;
    case WriteOp(data) =>
      assert a.world == w;
    case FlushOp =>
      assert a.world == w;
    case CloseOp =>
      assert a.world == w;
  }

  /** At most one download per handle: whatever calls follow, a handle on
      an existing object asks the store at most once in total, and not at
      all once it has downloaded. */
  lemma {:induction false} RunFetchesAtMostOnce(w: World, h: Handle, ops: seq<Op>)
    requires h.id in w.store.objects
    ensures Run(w, h, ops).world.fetches == w.fetches || AppendsOne(w.fetches, Run(w, h, ops).world.fetches)
    ensures h.downloaded ==> Run(w, h, ops).world.fetches == w.fetches
    decreases |ops|
  {
    if ops != [] {
      var s := Apply(w, h, ops[0]);
      ApplyFetchBound(w, h, ops[0]);
      RunFetchesAtMostOnce(s.world, s.handle, ops[1..]);
      if s.world.fetches != w.fetches {
        assert s.handle.downloaded;
      }
    }
  }

  /** From `open` on: a handle on an existing object, opened eagerly or
      lazily, asks the store at most once over its whole life. */
  lemma OpenedHandleFetchesAtMostOnce(cfg: Config, w: World, id: ObjectId, ops: seq<Op>)
    requires id in w.store.objects && Open(cfg, w, id).result.Ok?
    ensures var o := Open(cfg, w, id);
            var e := Run(o.world, o.result.value, ops).world.fetches;
            e == w.fetches || AppendsOne(w.fetches, e)
  {
    var o := Open(cfg, w, id);
    var h := o.result.value;
    RunFetchesAtMostOnce(o.world, h, ops);
    if !cfg.lazy {
      var h0 := NewHandle(cfg, id);
      GetFileFetchBound(w, h0);
    }
  }
}

=== FILE: local_fs.dfy ===
/** The local filesystem, abstracted: named files as a map from path to
    bytes, a set of directories, and open file objects that carry their
    own contents, cursor and closed flag. */
module LocalFs {
  import opened Base
  import opened Paths

  datatype FileSystem = FileSystem(files: map<Path, Bytes>, dirs: set<Path>)

  /** `os.path.isfile(p)`. */
  predicate IsFile(fs: FileSystem, p: Path)
  {
    p in fs.files
  }

  /** `os.path.isdir(p)`; "tmp/" and "tmp" are the same directory. */
  predicate IsDir(fs: FileSystem, p: Path)
  {
    Normalize(p) in fs.dirs
  }

  /** `os.makedirs(d, exist_ok=True)`: creates `d` and its ancestors, and
      fails when one of them already exists as a regular file. */
  function MakeDirs(fs: FileSystem, d: Path): (r: Result<FileSystem, Error>)
    ensures r.Ok? <==> DirsOf(d) !! fs.files.Keys
    ensures r.Ok? ==> r.value.files == fs.files && fs.dirs <= r.value.dirs
    ensures r.Ok? && d != "" ==> IsDir(r.value, d)
    ensures r.Ok? ==> forall q :: q in r.value.dirs ==> q in fs.dirs || q in DirsOf(d)
    ensures r.Err? ==> r.error == FileExistsError(d)
  {
    if DirsOf(d) !! fs.files.Keys then Ok(fs.(dirs := fs.dirs + DirsOf(d)))
    else Err(FileExistsError(d))
  }

  /** `exist_ok=True`: creating a directory tree that already exists
      changes nothing and does not fail. */
  lemma MakeDirsIdempotent(fs: FileSystem, d: Path)
    requires MakeDirs(fs, d).Ok?
    ensures MakeDirs(MakeDirs(fs, d).value, d) == MakeDirs(fs, d)
  {
  }

  /** An open Python file object. `path` is `None` for an anonymous
      temporary file. */
  datatype FileState = FileState(path: Option<Path>, contents: Bytes, cursor: nat, closed: bool)

  /** The cursor never goes past the end: every file here is only rewound
      to 0 or moved by reads and writes. */
  type FileObject = f: FileState | f.cursor <= |f.contents| witness FileState(None, [], 0, false)

  /** A freshly opened file object positioned at 0. */
  function Fresh(path: Option<Path>, contents: Bytes): (f: FileObject)
    ensures f.path == path && f.contents == contents && f.cursor == 0 && !f.closed
  {
    FileState(path, contents, 0, false)
  }

  /** `f.write(data)`: overwrites (and where needed extends) the contents
      at the cursor and moves the cursor past what was written. */
  function WriteBytes(f: FileObject, data: Bytes): (g: FileObject)
    ensures g.path == f.path && g.closed == f.closed
    ensures g.cursor == f.cursor + |data|
    ensures |g.contents| == Max(|f.contents|, g.cursor)
    ensures g.contents[..f.cursor] == f.contents[..f.cursor]
    ensures g.contents[f.cursor..g.cursor] == data
    ensures g.cursor <= |f.contents| ==> g.contents[g.cursor..] == f.contents[g.cursor..]
  {
    var end := f.cursor + |data|;
    var tail := if end < |f.contents| then f.contents[end..] else [];
    f.(contents := f.contents[..f.cursor] + data + tail, cursor := end)
  }

  /** Two consecutive writes are one write of the concatenation. */
  lemma WriteConcat(f: FileObject, a: Bytes, b: Bytes)
    ensures WriteBytes(WriteBytes(f, a), b) == WriteBytes(f, a + b)
  {
    var g := WriteBytes(f, a);
    var x := WriteBytes(g, b);
    var y := WriteBytes(f, a + b);
    assert |x.contents| == |y.contents|;
    forall i | 0 <= i < |x.contents|
      ensures x.contents[i] == y.contents[i]
    {
      if i < f.cursor {
        assert x.contents[i] == x.contents[..f.cursor][i];
        assert y.contents[i] == y.contents[..f.cursor][i];
      } else if i < g.cursor {
        assert x.contents[i] == g.contents[i] == g.contents[f.cursor..g.cursor][i - f.cursor];
        assert y.contents[i] == y.contents[f.cursor..y.cursor][i - f.cursor];
      } else if i < x.cursor {
        assert x.contents[i] == x.contents[g.cursor..x.cursor][i - g.cursor];
        assert y.contents[i] == y.contents[f.cursor..y.cursor][i - f.cursor];
      } else {
        assert x.contents[i] == x.contents[x.cursor..][i - x.cursor];
        assert y.contents[i] == y.contents[y.cursor..][i - y.cursor];
        assert g.contents[x.cursor..][i - x.cursor] == g.contents[i];
      }
    }
    assert x.contents == y.contents;
  }

  /** What a read returns, and the file object after it. */
  datatype ReadOut = ReadOut(data: Bytes, file: FileObject)

  /** `f.read()`: everything from the cursor to the end. */
  function ReadAll(f: FileObject): (r: ReadOut)
    ensures f.contents == f.contents[..f.cursor] + r.data
    ensures r.file == f.(cursor := |f.contents|)
  {
    ReadOut(f.contents[f.cursor..], f.(cursor := |f.contents|))
  }

  /** `f.read(n)`: at most `n` bytes from the cursor, fewer only at the end
      of the file. */
  function ReadUpTo(f: FileObject, n: nat): (r: ReadOut)
    ensures |r.data| <= n
    ensures |r.data| < n ==> r.file.cursor == |f.contents|
    ensures r.file == f.(cursor := f.cursor + |r.data|)
    ensures r.data == f.contents[f.cursor..r.file.cursor]
  {
    var end := Min(f.cursor + n, |f.contents|);
    ReadOut(f.contents[f.cursor..end], f.(cursor := end))
  }

  /** The end (exclusive) of the line starting at `i`: just past the first
      newline at or after `i`, or the end of the contents if there is none. */
  function LineEnd(c: Bytes, i: nat): (e: nat)
    requires i <= |c|
    ensures i <= e <= |c|
    ensures Newline !in c[i..Max(i, e - 1)]
    ensures e == |c| || (e > i && c[e - 1] == Newline)
    ensures e == |c| && e > i && c[e - 1] != Newline ==> Newline !in c[i..]
    decreases |c| - i
  {
    if i == |c| then i
    else if c[i] == Newline then i + 1
    else
      var e := LineEnd(c, i + 1);
      assert e > i + 1 ==> c[i..e - 1] == [c[i]] + c[i + 1..e - 1];
      assert e == |c| && c[e - 1] != Newline ==> c[i..] == [c[i]] + c[i + 1..];
      e
  }

  /** `f.readline()`: the next newline-terminated segment, or the rest of
      the file when no newline follows the cursor. */
  function ReadLine(f: FileObject): (r: ReadOut)
    ensures r.file == f.(cursor := f.cursor + |r.data|)
    ensures r.data == f.contents[f.cursor..r.file.cursor]
    ensures r.data == [] <==> f.cursor == |f.contents|
    ensures r.data != [] && r.data[|r.data| - 1] != Newline ==> r.file.cursor == |f.contents| && Newline !in r.data
    ensures Newline !in r.data[..Max(0, |r.data| - 1)]
  {
    var e := LineEnd(f.contents, f.cursor);
    assert f.contents[f.cursor..e][..Max(0, e - f.cursor - 1)] == f.contents[f.cursor..Max(f.cursor, e - 1)];
    ReadOut(f.contents[f.cursor..e], f.(cursor := e))
  }
}

=== FILE: paths.dfy ===
/** POSIX path strings as the cache layout uses them: `os.path.join` of two
    components, `str.split('/')` and `'/'.join`, and the parent-directory
    computation `'/'.join(key.split('/')[0:-1])`. */
module Paths {

  type Path = string

  /** `os.sep` on a POSIX system. */
  const Sep: char := '/'

  /** `os.path.join(a, b)`: an absolute `b` replaces `a`; otherwise `b` is
      appended to `a`, with one separator added unless `a` is empty or
      already ends with one. */
  function Join(a: Path, b: Path): (r: Path)
    ensures |b| > 0 && b[0] == Sep ==> r == b
    ensures (|b| == 0 || b[0] != Sep) ==> |a| <= |r| && r[..|a|] == a
    ensures |b| <= |r| && r[|r| - |b|..] == b
    ensures a != "" ==> r != ""
    ensures (|b| == 0 || b[0] != Sep) && (a == "" || a[|a| - 1] == Sep) ==> |r| == |a| + |b|
    ensures (|b| == 0 || b[0] != Sep) && a != "" && a[|a| - 1] != Sep ==> |r| == |a| + |b| + 1 && r[|a|] == Sep
  {
    if |b| > 0 && b[0] == Sep then b
    else if a == "" || a[|a| - 1] == Sep then a + b
    else a + [Sep] + b
  }

  /** Joining onto a relative path and then appending is appending to the
      join. */
  lemma JoinAppends(a: Path, b: Path, c: Path)
    requires |b + c| == 0 || (b + c)[0] != Sep
    ensures Join(a, b + c) == Join(a, b) + c
  {
    if |b| > 0 {
      assert (b + c)[0] == b[0];
    }
    if a == "" || a[|a| - 1] == Sep {
      assert a + (b + c) == a + b + c;
    } else {
      assert a + [Sep] + (b + c) == a + [Sep] + b + c;
    }
  }

  /** `s.split('/')`: the maximal separator-free pieces of `s`, in order. */
  function Split(s: string): (parts: seq<string>)
    ensures |parts| >= 1
    ensures forall i :: 0 <= i < |parts| ==> Sep !in parts[i]
    decreases |s|
  {
    if |s| == 0 then [""]
    else
      var rest := Split(s[1..]);
      if s[0] == Sep then [""] + rest
      else [[s[0]] + rest[0]] + rest[1..]
  }

  /** `'/'.join(parts)`: starts with the first piece, followed by a '/'
      when there is more than one. */
  function JoinParts(parts: seq<string>): (r: string)
    ensures |parts| > 0 ==> |parts[0]| <= |r| && r[..|parts[0]|] == parts[0]
    ensures |parts| > 1 ==> |parts[0]| < |r| && r[|parts[0]|] == Sep
    ensures |parts| == 0 ==> r == ""
    decreases |parts|
  {
    if |parts| == 0 then ""
    else if |parts| == 1 then parts[0]
    else
      parts[0] + [Sep] + JoinParts(parts[1..])
  }

  /** Joining the pieces of a split gives the string back. */
  lemma {:induction false} JoinSplit(s: string)
    ensures JoinParts(Split(s)) == s
    decreases |s|
  {
    if |s| > 0 {
      var rest := Split(s[1..]);
      JoinSplit(s[1..]);
      if s[0] == Sep {
        assert Split(s) == [""] + rest;
        assert (([""] + rest)[1..]) == rest;
      } else if |rest| == 1 {
        assert Split(s) == [[s[0]] + rest[0]];
        assert s == [s[0]] + s[1..];
      } else {
        var parts := [[s[0]] + rest[0]] + rest[1..];
        assert Split(s) == parts;
        assert parts[1..] == rest[1..];
        assert JoinParts(rest) == rest[0] + [Sep] + JoinParts(rest[1..]);
        assert s == [s[0]] + s[1..];
      }
    }
  }

  /** Splitting a string with no separator gives the string alone. */
  lemma {:induction false} SplitNoSep(s: string)
    requires Sep !in s
    ensures Split(s) == [s]
    decreases |s|
  {
    if |s| > 0 {
      SplitNoSep(s[1..]);
      assert s == [s[0]] + s[1..];
    }
  }

  /** The last piece of a '/'-join is everything after the last separator. */
  lemma {:induction false} JoinPartsSnoc(parts: seq<string>)
    requires |parts| >= 2
    ensures JoinParts(parts) == JoinParts(parts[..|parts| - 1]) + [Sep] + parts[|parts| - 1]
    decreases |parts|
  {
    var n := |parts|;
    if n == 2 {
      assert parts[..1] == [parts[0]];
      assert parts[1..] == [parts[1]];
    } else {
      JoinPartsSnoc(parts[1..]);
      assert parts[1..][..n - 2] == parts[..n - 1][1..];
      assert parts[1..][n - 2] == parts[n - 1];
    }
  }

  /** The directory part of an object key: every component but the last,
      re-joined with '/'. */
  function Parent(key: string): string
  {
    var parts := Split(key);
    JoinParts(parts[..|parts| - 1])
  }

  /** The last component of an object key. */
  function LastPart(key: string): string
  {
    var parts := Split(key);
    parts[|parts| - 1]
  }

  /** `Parent` cuts the key at its LAST separator: a key without '/' has an
      empty parent, and any other key is its parent, one '/', and a last
      component that contains no '/'. */
  lemma ParentCutsAtLastSep(key: string)
    ensures Sep !in key ==> Parent(key) == "" && LastPart(key) == key
    ensures Sep in key ==> key == Parent(key) + [Sep] + LastPart(key)
    ensures Sep !in LastPart(key)
  {
    var parts := Split(key);
    JoinSplit(key);
    if Sep !in key {
      SplitNoSep(key);
      assert parts[..0] == [];
    } else {
      JoinPartsSnoc(parts);
    }
  }

  /** A directory path with trailing separators removed (the root "/" is
      kept), so that "tmp/" and "tmp" name the same directory. */
  function Normalize(p: Path): (r: Path)
    ensures |r| <= |p| && r == p[..|r|]
    ensures |r| > 1 ==> r[|r| - 1] != Sep
    ensures p != "" ==> r != ""
    decreases |p|
  {
    if |p| > 1 && p[|p| - 1] == Sep then Normalize(p[..|p| - 1]) else p
  }

  /** The directories `os.makedirs(p)` ensures exist: `p` itself and every
      ancestor named by a prefix of `p` that ends before a separator. */
  function DirsOf(p: Path): (ds: set<Path>)
    ensures p != "" ==> Normalize(p) in ds
  {
    var ds := set i | 1 <= i <= |p| && (i == |p| || p[i] == Sep) :: Normalize(p[..i]);
    assert p != "" ==> p[..|p|] == p && Normalize(p[..|p|]) in ds;
    ds
  }

  /** No directory `os.makedirs(p)` creates is longer than `p`. */
  lemma DirsOfWithin(p: Path, q: Path)
    requires q in DirsOf(p)
    ensures |q| <= |p|
  {
    var i :| 1 <= i <= |p| && (i == |p| || p[i] == Sep) && q == Normalize(p[..i]);
  }
}

=== FILE: remote.dfy ===
/** The remote object store, reduced to the one capability the handle uses:
    `get_object(Bucket, Key)['Body']`, a byte stream whose `read(amt)`
    returns the next at most `amt` bytes and returns nothing only at the
    end of the stream (or when asked for nothing). */
module Remote {
  import opened Base

  /** A (bucket, key) pair naming one remote object. */
  datatype ObjectId = ObjectId(bucket: string, key: string)

  type Positive = n: nat | n > 0 witness 1

  /** The store: object contents by id. `delivery` is the most bytes the
      transport hands back from one read, so a read may return fewer than
      it was asked for even before the end of the stream. */
  datatype RemoteStore = RemoteStore(objects: map<ObjectId, Bytes>, delivery: Positive)

  /** A response body being consumed: the object's bytes, how many have been
      handed out, and the `amt` of every read made so far. */
  datatype StreamState = StreamState(data: Bytes, pos: nat, delivery: Positive, asked: seq<nat>)

  type Stream = s: StreamState | s.pos <= |s.data| witness StreamState([], 0, 1, [])

  /** The errors `get_object` raises (a botocore `ClientError`). */
  datatype ClientError = NoSuchKey(id: ObjectId)

  /** One call of `get_object`, with the `amt` of every read on its body. */
  datatype Fetch = Fetch(id: ObjectId, amounts: seq<nat>)

  /** `get_object(Bucket=id.bucket, Key=id.key)['Body']`: a fresh stream
      over the object, or a client error when there is no such object. */
  function GetObject(store: RemoteStore, id: ObjectId): (r: Result<Stream, ClientError>)
    ensures r.Ok? <==> id in store.objects
    ensures r.Ok? ==> r.value.data == store.objects[id] && r.value.pos == 0 && r.value.asked == []
    ensures r.Err? ==> r.error == NoSuchKey(id)
  {
    if id in store.objects then Ok(StreamState(store.objects[id], 0, store.delivery, []))
    else Err(NoSuchKey(id))
  }

  /** The bytes one read returned, and the stream after it. */
  datatype Chunk = Chunk(bytes: Bytes, rest: Stream)

  /** `body.read(amt=amt)`. */
  function ReadBody(s: Stream, amt: nat): (r: Chunk)
    ensures r.rest.data == s.data && r.rest.asked == s.asked + [amt]
    ensures r.rest.pos == s.pos + |r.bytes|
    ensures r.bytes == s.data[s.pos..r.rest.pos]
    ensures |r.bytes| <= amt
    ensures r.bytes == [] <==> amt == 0 || s.pos == |s.data|
  {
    var n := Min(Min(amt, s.delivery), |s.data| - s.pos);
    Chunk(s.data[s.pos..s.pos + n], s.(pos := s.pos + n, asked := s.asked + [amt]))
  }
}

=== FILE: scenarios.dfy ===
/** The behaviours the repository's tests exercise, stated for every world
    rather than for one bucket: a plain read returns the remote object; a
    cache directory receives a copy; without `use_cache` an altered cache
    file is ignored and overwritten; with it the altered file is served. */
module Scenarios {
  import opened Base
  import opened Paths
  import opened LocalFs
  import opened Remote
  import opened CachedFile
  import opened HandleProperties

  /** The handle `open` returns, lazy or eager, followed by `read()`. */
  function OpenAndReadAll(cfg: Config, w: World, id: ObjectId): Step<Bytes>
    requires Open(cfg, w, id).result.Ok?
  {
    var o := Open(cfg, w, id);
    Read(o.world, o.result.value, -1)
  }

  /** The lazy half of `OpenReadReturnsRemote`: the first read downloads
      and returns the object. */
  lemma LazyOpenReadReturnsRemote(cfg: Config, w: World, id: ObjectId)
    requires cfg.lazy && !(cfg.useCache && IsFile(w.fs, CachePath(cfg, id.key)))
    requires GetTmp(cfg, w.fs, id.key).file.Ok? && id in w.store.objects
    ensures Open(cfg, w, id).result.Ok?
    ensures OpenAndReadAll(cfg, w, id).result == Ok(w.store.objects[id])
    ensures OpenAndReadAll(cfg, w, id).world == Download(w, Open(cfg, w, id).result.value).world
  {
    var h0 := Open(cfg, w, id).result.value;
    GetFileDownloads(w, h0);
    var g := GetFile(w, h0);
    var s := Resolve(w, h0);
    assert s == Step(g.world, g.handle.(file := SharedTmp), Ok(()));
    assert Backing(s.handle) == g.handle.tmp;
    ReadFromOpenFile(w, h0, -1);
    assert w.store.objects[id][0..] == w.store.objects[id];
  }

  /** The eager half of `OpenReadReturnsRemote`: construction downloads and
      the first read returns the object. */
  lemma EagerOpenReadReturnsRemote(cfg: Config, w: World, id: ObjectId)
    requires !cfg.lazy && !(cfg.useCache && IsFile(w.fs, CachePath(cfg, id.key)))
    requires GetTmp(cfg, w.fs, id.key).file.Ok? && id in w.store.objects
    ensures Open(cfg, w, id).result.Ok?
    ensures OpenAndReadAll(cfg, w, id).result == Ok(w.store.objects[id])
    ensures OpenAndReadAll(cfg, w, id).world ==
              Download(w, NewHandle(cfg, id)).world
  {
    var h0 := NewHandle(cfg, id);
    GetFileDownloads(w, h0);
    EagerOpenDownloads(cfg, w, id);
    EagerOpenIsGetFile(cfg, w, id);
    var o := Open(cfg, w, id);
    assert o.world == GetFile(w, h0).world;
    var h := o.result.value;
    assert Resolve(o.world, h) == Step(o.world, h, Ok(()));
    ReadAllFromOpenFile(o.world, h);
    assert w.store.objects[id][0..] == w.store.objects[id];
  }

  /** Without a cache file to reuse, `open(path).read()` returns exactly the
      remote object, lazy or eager, after one fetch; with a cache directory
      the file `dir/key` then holds exactly the object, whatever it held
      before. */
  lemma OpenReadReturnsRemote(cfg: Config, w: World, id: ObjectId)
    requires !(cfg.useCache && IsFile(w.fs, CachePath(cfg, id.key)))
    requires GetTmp(cfg, w.fs, id.key).file.Ok? && id in w.store.objects
    ensures Open(cfg, w, id).result.Ok?
    ensures OpenAndReadAll(cfg, w, id).result == Ok(w.store.objects[id])
    ensures cfg.dir != "" ==>
              OpenAndReadAll(cfg, w, id).world.fs ==
                GetTmp(cfg, w.fs, id.key).fs.(files := w.fs.files[CachePath(cfg, id.key) := w.store.objects[id]])
    ensures cfg.dir == "" ==> OpenAndReadAll(cfg, w, id).world.fs == w.fs
    ensures AppendsOne(w.fetches, OpenAndReadAll(cfg, w, id).world.fetches)
  {
    var h0 := NewHandle(cfg, id);
    DownloadWritesCache(w, h0);
    DownloadFillsTmp(w, h0);
    if cfg.lazy {
      LazyOpenReadReturnsRemote(cfg, w, id);
    } else {
      EagerOpenReadReturnsRemote(cfg, w, id);
    }
  }

  /** With `use_cache` set and a file at `dir/key`, `open(path).read()`
      returns that file's bytes verbatim, lazy or eager, and neither the
      filesystem nor the remote store is touched. */
  lemma OpenReadReusesCache(cfg: Config, w: World, id: ObjectId)
    requires cfg.useCache && IsFile(w.fs, CachePath(cfg, id.key))
    ensures Open(cfg, w, id).result.Ok?
    ensures OpenAndReadAll(cfg, w, id).result == Ok(w.fs.files[CachePath(cfg, id.key)])
    ensures OpenAndReadAll(cfg, w, id).world == w
  {
    var h0 := NewHandle(cfg, id);
    GetFileReusesCache(w, h0);
    if !cfg.lazy {
      EagerCacheHitMarksDownloaded(cfg, w, id);
    }
  }

  /** A new lazy handle's first read whose fetch finds no object raises the
      IOError, leaves `_file` unresolved, and leaves `dir/key` empty. */
  lemma FailedFirstRead(cfg: Config, w: World, id: ObjectId)
    requires cfg.lazy && cfg.useCache && cfg.dir != ""
    requires !IsFile(w.fs, CachePath(cfg, id.key))
    requires GetTmp(cfg, w.fs, id.key).file.Ok? && id !in w.store.objects
    ensures Open(cfg, w, id).result.Ok?
    ensures var first := Read(w, Open(cfg, w, id).result.value, -1);
            && first.result == Err(IOError(DownloadFailedMessage))
            && first.handle.file.NoFile?
            && CachePath(cfg, id.key) in first.world.fs.files
            && first.world.fs.files[CachePath(cfg, id.key)] == []
  {
    var h := Open(cfg, w, id).result.value;
    DownloadFailures(w, h);
    var dl := Download(w, h);
    assert GetFile(w, h) == Step(dl.world, dl.handle, Err(dl.result.error));
    assert Resolve(w, h) == Step(dl.world, dl.handle, Err(dl.result.error));
    assert Read(w, h, -1) == Step(dl.world, dl.handle, Err(dl.result.error));
  }

  /** With `use_cache`, a handle whose `_file` is unresolved reads an
      existing `dir/key` verbatim and changes nothing in the world. */
  lemma UnresolvedReadHitsCache(w: World, h: Handle)
    requires h.file.NoFile? && h.cfg.useCache && IsFile(w.fs, CachePath(h.cfg, h.id.key))
    ensures Read(w, h, -1).result == Ok(w.fs.files[CachePath(h.cfg, h.id.key)])
    ensures Read(w, h, -1).world == w
  {
    var p := CachePath(h.cfg, h.id.key);
    GetFileReusesCache(w, h);
    var f := Fresh(Some(p), w.fs.files[p]);
    assert Resolve(w, h) == Step(w, h.(file := Own(f)), Ok(()));
    ReadAllFromOpenFile(w, h);
  }

  /** A failed download is later served as an empty object. With
      `use_cache` and a cache directory, a lazy handle whose object is
      missing raises the IOError on its first read but leaves `dir/key`
      truncated to empty. The next read on that handle, and the read of any
      later `open`, then take the cache-hit branch and return no bytes
      without asking the store. */
  lemma FailedFetchThenCacheServesEmpty(cfg: Config, w: World, id: ObjectId)
    requires cfg.lazy && cfg.useCache && cfg.dir != ""
    requires !IsFile(w.fs, CachePath(cfg, id.key))
    requires GetTmp(cfg, w.fs, id.key).file.Ok? && id !in w.store.objects
    ensures Open(cfg, w, id).result.Ok?
    ensures var h := Open(cfg, w, id).result.value;
            var first := Read(w, h, -1);
            var second := Read(first.world, first.handle, -1);
            && first.result == Err(IOError(DownloadFailedMessage))
            && second.result == Ok([])
            && second.world == first.world
            && Open(cfg, first.world, id).result.Ok?
            && OpenAndReadAll(cfg, first.world, id).result == Ok([])
            && OpenAndReadAll(cfg, first.world, id).world == first.world
  {
    FailedFirstRead(cfg, w, id);
    var first := Read(w, Open(cfg, w, id).result.value, -1);
    UnresolvedReadHitsCache(first.world, first.handle);
    OpenReadReusesCache(cfg, first.world, id);
  }

  /** Once `_get_tmp` has succeeded, it succeeds again on the directories
      it left behind, whatever the files then hold. */
  lemma GetTmpStaysUsable(cfg: Config, fs: FileSystem, key: string, files: map<Path, Bytes>)
    requires GetTmp(cfg, fs, key).file.Ok?
    ensures GetTmp(cfg, FileSystem(files, GetTmp(cfg, fs, key).fs.dirs), key).file.Ok?
  {
  }

  /** Another program overwriting a file between two opens, as in
      `open(path, 'w').write(bytes)`: `path` now holds `bytes`. */
  function Overwrite(w: World, path: Path, bytes: Bytes): (v: World)
    ensures v.fs.files == w.fs.files[path := bytes] && v.fs.dirs == w.fs.dirs
    ensures v.store == w.store && v.fetches == w.fetches
  {
    w.(fs := w.fs.(files := w.fs.files[path := bytes]))
  }

  /** Caches are re-read from the store unless reuse is asked for: open and
      read once, overwrite `dir/key` with anything, open and read again, and
      the second read still returns the remote object (and puts it back
      into `dir/key`). */
  lemma AlteredCacheIsRefetched(dir: Path, lazy: bool, w: World, id: ObjectId, altered: Bytes)
    requires dir != ""
    requires GetTmp(Config(dir, lazy, false), w.fs, id.key).file.Ok? && id in w.store.objects
    ensures Open(Config(dir, lazy, false), w, id).result.Ok?
    ensures var cfg := Config(dir, lazy, false);
            var first := OpenAndReadAll(cfg, w, id);
            var w2 := Overwrite(first.world, CachePath(cfg, id.key), altered);
            && first.result == Ok(w.store.objects[id])
            && Open(cfg, w2, id).result.Ok?
            && OpenAndReadAll(cfg, w2, id).result == Ok(w.store.objects[id])
            && CachePath(cfg, id.key) in OpenAndReadAll(cfg, w2, id).world.fs.files
            && OpenAndReadAll(cfg, w2, id).world.fs.files[CachePath(cfg, id.key)] == w.store.objects[id]
  {
    var cfg := Config(dir, lazy, false);
    OpenReadReturnsRemote(cfg, w, id);
    var first := OpenAndReadAll(cfg, w, id);
    var p := CachePath(cfg, id.key);
    var w2 := Overwrite(first.world, p, altered);
    GetTmpStaysUsable(cfg, w.fs, id.key, w2.fs.files);
    assert w2.fs == FileSystem(w2.fs.files, GetTmp(cfg, w.fs, id.key).fs.dirs);
    OpenReadReturnsRemote(cfg, w2, id);
    var obj := w.store.objects[id];
    assert w2.store == w.store;
    var second := OpenAndReadAll(cfg, w2, id);
    assert second.world.fs.files == w2.fs.files[p := obj];
    assert second.world.fs.files[p] == obj;
  }

  /** With reuse asked for, a stale cache is served: the first open
      downloads into `dir/key`; after `dir/key` is overwritten, the second
      open reads the altered bytes and fetches nothing. */
  lemma AlteredCacheIsServed(dir: Path, lazy: bool, w: World, id: ObjectId, altered: Bytes)
    requires dir != ""
    requires !IsFile(w.fs, CachePath(Config(dir, lazy, true), id.key))
    requires GetTmp(Config(dir, lazy, true), w.fs, id.key).file.Ok? && id in w.store.objects
    ensures Open(Config(dir, lazy, true), w, id).result.Ok?
    ensures var cfg := Config(dir, lazy, true);
            var first := OpenAndReadAll(cfg, w, id);
            var w2 := Overwrite(first.world, CachePath(cfg, id.key), altered);
            && first.result == Ok(w.store.objects[id])
            && CachePath(cfg, id.key) in first.world.fs.files
            && first.world.fs.files[CachePath(cfg, id.key)] == w.store.objects[id]
            && Open(cfg, w2, id).result.Ok?
            && OpenAndReadAll(cfg, w2, id).result == Ok(altered)
            && OpenAndReadAll(cfg, w2, id).world.fetches == first.world.fetches
  {
    var cfg := Config(dir, lazy, true);
    OpenReadReturnsRemote(cfg, w, id);
    var first := OpenAndReadAll(cfg, w, id);
    var w2 := Overwrite(first.world, CachePath(cfg, id.key), altered);
    OpenReadReusesCache(cfg, w2, id);
  }
}

=== FILE: transfer.dfy ===
/** The chunked copy at the heart of a download: read up to `amt` bytes from
    the response body, append them to the local file, and stop at the first
    empty read. */
module Transfer {
  import opened Base
  import opened LocalFs
  import opened Remote

  /** The local file after the copy, and the body as the copy left it. */
  datatype Drained = Drained(file: FileObject, body: Stream)

  /** The copy loop: `data = body.read(amt)`, and while `data` is non-empty,
      `dest.write(data)` and read again. */
  function Drain(body: Stream, amt: nat, dest: FileObject): (r: Drained)
    ensures r.body.data == body.data
    ensures r.file.path == dest.path && r.file.closed == dest.closed
    ensures |r.body.asked| > |body.asked| && r.body.asked[..|body.asked|] == body.asked
    ensures forall i :: |body.asked| <= i < |r.body.asked| ==> r.body.asked[i] == amt
    decreases |body.data| - body.pos
  {
    var c := ReadBody(body, amt);
    if c.bytes == [] then Drained(dest, c.rest)
    else
      var r := Drain(c.rest, amt, WriteBytes(dest, c.bytes));
      assert r.body.asked[..|body.asked|] == r.body.asked[..|c.rest.asked|][..|body.asked|];
      r
  }

  /** For any positive chunk size the copy writes exactly the unread rest of
      the body at the file's cursor and consumes the body to its end; with a
      zero chunk size the first read is empty and nothing is written. */
  lemma {:induction false} DrainCopiesRest(body: Stream, amt: nat, dest: FileObject)
    ensures amt > 0 ==> Drain(body, amt, dest).file == WriteBytes(dest, body.data[body.pos..])
    ensures amt > 0 ==> Drain(body, amt, dest).body.pos == |body.data|
    ensures amt == 0 ==> Drain(body, amt, dest).file == dest
    decreases |body.data| - body.pos
  {
    var c := ReadBody(body, amt);
    if c.bytes == [] {
      if amt > 0 {
        assert body.data[body.pos..] == [];
        assert WriteBytes(dest, []) == dest;
      }
    } else {
      DrainCopiesRest(c.rest, amt, WriteBytes(dest, c.bytes));
      WriteConcat(dest, c.bytes, body.data[c.rest.pos..]);
      SliceConcat(body.data, body.pos, c.rest.pos);
    }
  }

  /** The number of reads of at most `k` bytes that hand out `n` bytes:
      `n / k` rounded up. */
  function CeilDiv(n: nat, k: Positive): nat
    decreases n
  {
    if n == 0 then 0 else if n <= k then 1 else 1 + CeilDiv(n - k, k)
  }

  /** `CeilDiv(n, k)` is the least number of `k`-byte reads that covers `n`
      bytes: `k` times it reaches `n` and falls short of `n + k`. */
  lemma {:induction false} CeilDivBounds(n: nat, k: Positive)
    ensures n <= CeilDiv(n, k) * k < n + k
    decreases n
  {
    if n > k {
      CeilDivBounds(n - k, k);
      assert CeilDiv(n, k) * k == k + CeilDiv(n - k, k) * k;
    }
  }

  /** One read of `Min(n, k)` bytes leaves one read fewer to make. */
  lemma CeilDivStep(n: nat, k: Positive)
    requires n > 0
    ensures CeilDiv(n, k) == 1 + CeilDiv(n - Min(n, k), k)
  {
  }

  /** The loop stops at the first empty read. With a positive chunk size it
      makes one read per delivered chunk of `Min(amt, delivery)` bytes (the
      last one possibly shorter) and one final, empty read; with a zero
      chunk size it makes the single read that returns nothing. */
  lemma {:induction false} DrainRequestCount(body: Stream, amt: nat, dest: FileObject)
    ensures amt > 0 ==>
              |Drain(body, amt, dest).body.asked| ==
                |body.asked| + CeilDiv(|body.data| - body.pos, Min(amt, body.delivery)) + 1
    ensures amt == 0 ==> |Drain(body, amt, dest).body.asked| == |body.asked| + 1
    decreases |body.data| - body.pos
  {
    var c := ReadBody(body, amt);
    if c.bytes != [] {
      DrainRequestCount(c.rest, amt, WriteBytes(dest, c.bytes));
      var k := Min(amt, body.delivery);
      var n := |body.data| - body.pos;
      assert |c.bytes| == Min(n, k);
      CeilDivStep(n, k);
    } else if amt > 0 {
      assert |body.data| - body.pos == 0;
    }
  }

  /** The same loop as written in the downloader, as a while loop. It ends
      in the state `Drain` describes, so for a positive chunk size the file
      holds the rest of the body. */
  method CopyLoop(body: Stream, amt: nat, dest: FileObject) returns (file: FileObject, rest: Stream)
    ensures Drained(file, rest) == Drain(body, amt, dest)
    ensures amt > 0 ==> file == WriteBytes(dest, body.data[body.pos..]) && rest.pos == |rest.data|
    ensures amt == 0 ==> file == dest
  {
    var c := ReadBody(body, amt);
    var data := c.bytes;
    rest := c.rest;
    file := dest;
    while data != []
      invariant rest.data == body.data
      invariant Drain(body, amt, dest) ==
                  if data == [] then Drained(file, rest) else Drain(rest, amt, WriteBytes(file, data))
      decreases |rest.data| - rest.pos + |data|
    {
      file := WriteBytes(file, data);
      c := ReadBody(rest, amt);
      data := c.bytes;
      rest := c.rest;
    }
    DrainCopiesRest(body, amt, dest);
  }
}
